=== FILE: README.md ===
# A verified model of the snowserve request parser

This project models, in Dafny, the request-handling core of a small threaded
Python web server. It has three parts:

- **The request parser** of `src/http_messages.py` (module `HttpMessages`).
  - `HTTPRequest.parse` cuts the text at `"\r\n"` and splits the start line at
    single spaces.
  - It checks the method, the target and the version against the
    `HTTPEnforcer` allow-lists, in that order.
  - It collects up to 64 header lines split at `": "`.
  - It glues the lines after the first blank line into an optional body.
  - It returns 0 or an `HTTPParseError` code.
- **The per-connection handler** of `src/clients.py` (module `Clients`).
  - `ClientThread.converse`, `exit` and `transact` are modelled as the trace of
    `Read`, `Write` and `Close` events they produce on the socket talker.
  - The model also records how the thread ends: it finishes, it dies with an
    exception, or it hangs inside the parser.
  - The one response it writes is `"HTTP 200 OK\r\n\r\nParse Error: "` followed
    by the decimal code.
- **The first-draft parser** of `src/http.py` (module `LegacyHttp`). It turns
  every `"\r"` into a space and takes `split(" ", 3)` of the text. It keeps
  method, URI and version when there are exactly four pieces, and otherwise
  swallows the error.

Two support modules hold the Python operations the parsers rely on:

- `PyStrings` models `in`, `split`, `split` with `maxsplit`, `join`,
  `replace`, `strip` and `"%d" %`, following Python's semantics: empty pieces
  are kept, for example. Two limits apply:
  - Separators and patterns must be non-empty. Python raises `ValueError` for
    an empty separator, and the code never passes one.
  - `"%d" %` is defined only for non-negative numbers. The code formats only
    parse codes.
- `Wrappers` holds `Option`.

`ParseExamples` states what the parser model gives for a handful of concrete
requests.

Three things are kept abstract:

- **`float()`** is the parameter `toFloat: string -> Option<real>`. `None`
  stands for `float()` raising. `Some(v)` is a real that stands for the
  resulting double: the real 1.1 stands for the double nearest 1.1, which is
  the allow-list literal. Any other double stands for some real other than
  1.1, and that includes the non-finite results `nan` and `inf`.
- **UTF-8 decoding** is the parameter `decode`. `None` stands for the decoder
  raising.
- **The socket** is the sequence of bytes the peer has sent. `recv(1024)`
  returns a prefix of it.

`parse` ends in one of three ways, and the model exposes each one rather than
smoothing it over:

- It returns a code.
- It raises `IndexError` when the target or version field is missing and the
  fields before it were accepted, as for `"GET"` or `"GET /"`. A field is
  checked as soon as it is read. So `"PUT"` gives `BAD_METHOD` and `"GET /x"`
  gives `BAD_TARGET`, even though fields are missing.
- It never returns: a non-empty header line without `": "` is `continue`d
  without advancing the index.

In every case the request object keeps the fields it had filled in before the
exit, so the model returns it alongside the outcome.

## Behaviour that departs from the source's own comments

The model follows the code in each of these cases:

- **A start line with too few fields.** `PARSE_ERROR` is commented as the
  "generic parsing error" (src/http_messages.py:13). However, no path of
  `parse` returns it. A start line that lacks the target or the version raises
  `IndexError` instead, provided the fields before the missing one were
  accepted (`HttpMessages.StartLineStages`, `HttpMessages.Parse`,
  `ParseExamples.MissingTarget`, `ParseExamples.MissingVersion`).
- **Header lines without `": "`.** The comment at src/http_messages.py:79-80
  says such a line is skipped. The `continue` at line 83 jumps over the
  `index += 1` at line 90, so the loop looks at the same line again and `parse`
  does not terminate (`HttpMessages.DivergesExactly`,
  `ParseExamples.LineWithoutDelimiter`).
- **An empty read.** The comment at src/clients.py:35-36 says the connection
  ends. The code does close the socket, but it does not return. It falls
  through into `transact(None)`, where `str(None, "utf-8")` raises `TypeError`,
  so the thread dies with an exception (`Clients.Converse`).
- **Closing the socket.** The comment at src/clients.py:44 closes the
  connection as the thread exits. That line is not reached when decoding
  fails, when `parse` raises, or when `parse` never returns, so the socket is
  left open in those cases (`Clients.ConverseClosesOnce`).

Behaviour the source does not comment on, stated as the code has it:

- **The version field.** `replace("HTTP/", "")` deletes every occurrence of
  `"HTTP/"`, not only a leading one. A single pass can even leave a new
  `"HTTP/"` behind (`PyStrings.ReplaceCanRecreatePattern`).
- **The blank terminator line.** It counts toward the 64-line limit. A request
  with 64 header lines followed by the blank line is `REQUEST_TOO_LONG`
  (`HttpMessages.TooLongExactly`).
- **Stripping.** `strip()` removes Python's full Unicode whitespace set, not
  only ASCII blanks (`PyStrings.IsSpace`).
- **The legacy parser.** Its start line need not have three words, because a
  line break counts as a separator. What decides success is that the whole
  text holds at least three spaces and carriage returns together
  (`LegacyHttp.SucceedsIff`).
  - A two-word start line followed by a word and then another space or line
    break still sets method and URI (`LegacyHttp.TwoWordsThenMore`).
  - A two-word start line followed by at most one word, such as
    `"GET /\r\nx"`, keeps the defaults (`LegacyHttp.ShortStartLine`).

## Model

| member | source | states |
|---|---|---|
| PyStrings.FindSpec | src/http.py:46 | the search behind `in`, `split` and `replace` reports the leftmost occurrence, and reports none exactly when the pattern does not occur |
| PyStrings.SplitSpec | src/http_messages.py:81-82 | `split` yields a second piece exactly when the separator occurs, and no piece contains the separator |
| PyStrings.JoinSplit | src/http_messages.py:41 | joining the pieces of `split` with the same separator gives back the text |
| PyStrings.SplitJoin | src/http_messages.py:41 | pieces none of which runs into the separator are recovered by splitting their join |
| PyStrings.SplitGlued | src/http_messages.py:44 | when the first separator comes right after `a`, the first piece is `a` and the rest is the split of what follows |
| PyStrings.SplitNIsBoundedSplit | src/http.py:36 | `split(sep, n)` has `min(n + 1, len(split(sep)))` pieces and agrees with the full split on all but its last piece |
| PyStrings.JoinSplitN | src/http.py:36 | the pieces of a bounded split join back to the text |
| PyStrings.SplitNGlued | src/http.py:36 | a bounded split spends one cut on the separator right after a word |
| PyStrings.ReplaceAllIsJoinSplit | src/http_messages.py:59 | `replace(pat, repl)` equals splitting on `pat` and joining with `repl` |
| PyStrings.ReplaceCanRecreatePattern | src/http_messages.py:59 | one pass of `replace("HTTP/", "")` over `"HTHTTP/TP/1.1"` leaves `"HTTP/1.1"`, which still contains `"HTTP/"` |
| PyStrings.RemoveShortens | src/http_messages.py:59 | deleting a pattern leaves text without it unchanged and shortens text that holds it by at least the pattern's length |
| PyStrings.ReplaceCharPointwise | src/http.py:33 | replacing one character by another maps the text position by position and keeps its length |
| PyStrings.ReplaceCharCount | src/http.py:33 | after replacing `"\r"` by `" "`, the spaces are the old spaces plus the old carriage returns |
| PyStrings.SplitCharCount | src/http.py:36 | splitting on one character yields one more piece than there are copies of it |
| PyStrings.LStripSpec | src/http_messages.py:46 | `lstrip` removes a whitespace prefix and leaves a suffix that does not start with whitespace |
| PyStrings.RStripSpec | src/http_messages.py:46 | `rstrip` removes a whitespace suffix and leaves a prefix that does not end with whitespace |
| PyStrings.StripTrimmed | src/http_messages.py:86-87 | a stripped text neither starts nor ends with whitespace |
| PyStrings.StripPadded | src/http_messages.py:86-87 | `strip` removes exactly the surrounding whitespace: a text with non-blank ends, padded by whitespace, strips back to itself |
| PyStrings.StripIdempotent | src/http_messages.py:86-87 | stripping twice is stripping once |
| PyStrings.FormatDecimal | src/clients.py:60 | `"%d" % n` is a non-empty run of digits with no leading zero, one digit exactly when `n < 10` |
| PyStrings.DecimalRoundTrip | src/clients.py:60 | reading back `"%d" % n` gives `n` |
| PyStrings.DecimalCanonical | src/clients.py:60 | every digit string without a leading zero is `"%d"` of the number it denotes |
| HttpMessages.ValidateMethod | src/http_messages.py:127-131 | 0 exactly for `"GET"` or `"POST"` (case-sensitive, whole string), otherwise `BAD_METHOD` |
| HttpMessages.ValidateTarget | src/http_messages.py:135-139 | 0 exactly for `"/"` or `"/ifttt"`, otherwise `BAD_TARGET` |
| HttpMessages.ValidateVersion | src/http_messages.py:144-154 | 0 exactly when `float()` accepts the text and yields 1.1; `BAD_VERSION` both when it raises and when it yields another number |
| HttpMessages.Lines | src/http_messages.py:41 | the lines join back with `"\r\n"` to the text, none holds a `"\r\n"`, and there is more than one exactly when the text contains `"\r\n"` |
| HttpMessages.StartFields | src/http_messages.py:44 | the fields join back with single spaces to the start line, none holds a space, and there is more than one exactly when the start line contains a space |
| HttpMessages.VersionString | src/http_messages.py:58-59 | a stripped field without `"HTTP/"` is kept as it is; one with `"HTTP/"` loses at least those five characters |
| HttpMessages.Key | src/http_messages.py:81-86 | the header name neither starts nor ends with whitespace |
| HttpMessages.Value | src/http_messages.py:81-87 | the header value neither starts nor ends with whitespace |
| HttpMessages.HeaderLineHasDelimiter | src/http_messages.py:81-82 | a line is a header line (two or more pieces) exactly when it contains `": "`, and the blank line never is |
| HttpMessages.HeaderLineParts | src/http_messages.py:81-88 | the key is the stripped text before the first `": "` and the value the stripped text up to the second; anything after a second `": "` is dropped |
| HttpMessages.ScanHeaders | src/http_messages.py:70-90 | the loop stops at a blank line, at a non-empty line without `": "`, at index 64 only when more lines remain, or at the end; it stores at most 64 headers |
| HttpMessages.BodyAfter | src/http_messages.py:95-106 | the body is never the empty string |
| HttpMessages.Collect | src/http_messages.py:68-109 | after the start line, `parse` can only return 0 or `REQUEST_TOO_LONG`; success touches only headers and body |
| HttpMessages.Parse | src/http_messages.py:39-109 | `PARSE_ERROR` is never returned; every code is 0, 2, 3, 4 or 5; success means an allowed method and target and the number 1.1 as version; at most 64 headers; the body is never `""` |
| HttpMessages.HeaderStop | src/http_messages.py:70-83 | the number of leading header lines, capped at 64: all lines before it are header lines and the line at it is not |
| HttpMessages.StoreLastWins | src/http_messages.py:88 | storing pairs one after another keeps exactly the names some pair carries, each mapped to the value of its last pair |
| HttpMessages.HeadersLastWins | src/http_messages.py:81-88 | a key is in the dictionary exactly when some header line names it, and a later duplicate overwrites an earlier one |
| HttpMessages.ScanFrom | src/http_messages.py:70-90 | from any index before the stop, with the dictionary of the lines before it, the loop runs on to the stop |
| HttpMessages.HeaderLoopMatchesStop | src/http_messages.py:68-90 | the header loop ends where `HeaderStop` says, with the dictionary of the header lines before it |
| HttpMessages.StartLineStages | src/http_messages.py:44-65 | the checks run in the order method, target, version; each failure gives its own code; a missing field raises `IndexError` only after the fields before it passed |
| HttpMessages.EarlyExitState | src/http_messages.py:24-63 | starting from `HttpMessages.NewRequest`, the all-`None` state `HTTPRequest.__init__` sets up, after an early exit the fields assigned before the failing check keep their values, later ones stay `None`, headers stay empty and the body `None` |
| HttpMessages.AfterStartLine | src/http_messages.py:65-109 | once the start line passes: `REQUEST_TOO_LONG` exactly when 64 header lines are followed by any line; divergence exactly at a non-blank line without `": "`; otherwise 0. The headers are those of the leading header lines, and the body is the glued lines after the blank line, unless empty |
| HttpMessages.TooLongExactly | src/http_messages.py:70-73 | `REQUEST_TOO_LONG` exactly for an accepted start line followed by more than 64 lines whose first 64 are header lines, even when the 65th is the blank line |
| HttpMessages.DivergesExactly | src/http_messages.py:79-90 | `parse` never returns exactly when the start line passes and the first non-header line among the first 64 is not blank |
| HttpMessages.FirstNonHeader | src/http_messages.py:79-90 | a non-blank, non-header line within the limit with only header lines before it exists exactly when the loop stops at a non-blank line |
| Clients.Response | src/clients.py:60 | the written message is the fixed head followed by a decimal number with no sign and no leading zero |
| Clients.ResponseRoundTrip | src/clients.py:60 | the code can be read back out of the response written for it |
| Clients.ResponseExactly | src/clients.py:60 | a text reads as a code exactly when it is that code's response, so different codes give different responses; the status text is `200 OK` whatever the code |
| Clients.Recv | src/sockets.py:100 | `recv(limit)` yields at most `limit` bytes, a prefix of what the peer sent, and all of it when less than `limit` arrived |
| Clients.TalkerRead | src/sockets.py:99-105 | `read()` gives `None` exactly when nothing was sent, otherwise between 1 and 1024 received bytes |
| Clients.Transact | src/clients.py:55-60 | one write of the response carrying the parse code exactly when decoding succeeds and `parse` returns; otherwise nothing is written |
| Clients.Converse | src/clients.py:32-46 | exactly one read, first; an empty read gives `Read, Close` and a `TypeError`; a returned parse gives `Read, Write(response), Close`; a raising or undecodable request gives only `Read`; the parser sees exactly the decoded bytes |
| Clients.ConverseClosesOnce | src/clients.py:37-51 | the socket is closed at most once, and, with socket calls that do not raise, it stays open exactly when decoding fails or `parse` does not return |
| LegacyHttp.Pieces | src/http.py:33-36 | `split(" ", 3)` of the normalised text has between one and four pieces |
| LegacyHttp.LegacyParse | src/http.py:28-50 | only method, URI and version can change; version is either kept or set to 1.1; with any piece count but four nothing changes |
| LegacyHttp.Construct | src/http.py:14-24 | the request string is kept, headers stay the empty list, and the version is 1.0 or 1.1 |
| LegacyHttp.PiecesSpec | src/http.py:33-36 | normalising maps each `"\r"` to `" "` and nothing else; the pieces join back to the normalised text, none holds a carriage return, and all but the last are free of spaces |
| LegacyHttp.SucceedsIff | src/http.py:36-41 | there are four pieces, and method and URI get set, exactly when the text holds at least three spaces and carriage returns together |
| LegacyHttp.NormalizeGlued | src/http.py:33 | a text with no carriage return before its first space or `"\r"` normalises to that text, one space, and the normalised rest |
| LegacyHttp.PiecesOfWords | src/http.py:33-36 | three words, each ended by its own separator (a space or a `"\r"`, in any mix), are the first three pieces, and the normalised rest is the fourth |
| LegacyHttp.StartLineWords | src/http.py:43-47 | for such a text, whichever mix of spaces and carriage returns separates the words, method and URI are the first two words verbatim, and the version is 1.1 exactly when `"1.1"` occurs in the third word and otherwise stays 1.0 |
| LegacyHttp.SampleRequest | src/http.py:60 | the sample request parses to method `GET`, URI `/`, version 1.1 and no headers |
| LegacyHttp.ShortStartLine | src/http.py:40-50 | a request made of a two-word start line, its line break and at most one further word (no more spaces or line breaks) parses nothing: the defaults stay |
| LegacyHttp.TwoWordsThenMore | src/http.py:33-47 | a two-word start line followed by a word and then another space or line break does parse: its `"\r"` acts as the second separator, so method and URI are set, and the first word of the next line is taken as the version text |
| LegacyHttp.HeaderAfterShortStartLine | src/http.py:33-47 | `"GET /\r\nHost: x"` gives method `GET`, URI `/` and version 1.0, although its start line has no version |
| LegacyHttp.Normalize | src/http.py:33 | every `"\r"` becomes a space, every other character stays in place, and the result holds no carriage return |
| ParseExamples.VersionAfterPrefix | src/http_messages.py:58-59 | the version field `"HTTP/" + v` becomes `v` when `v` holds no `"HTTP/"` and no surrounding whitespace |
| ParseExamples.AcceptedStart | src/http_messages.py:44-63 | a start line `m t HTTP/1.1` with an allowed method and target passes every start-line check |
| ParseExamples.HostHeaderRequest | src/http_messages.py:39-109 | `GET / HTTP/1.1`, `Host: x`, blank line: success, `{"Host": "x"}`, no body |
| ParseExamples.BodyRequest | src/http_messages.py:95-109 | `POST /ifttt HTTP/1.1`, blank line, `hello`: success with body `hello` and no headers |
| ParseExamples.UnlistedMethod | src/http_messages.py:44-49 | any request starting `PUT ` gives `BAD_METHOD`, and the target is never read |
| ParseExamples.OtherVersion | src/http_messages.py:58-63 | a version text other than 1.1 after `"HTTP/"` gives `BAD_VERSION` |
| ParseExamples.VersionTwo | src/http_messages.py:144-154 | `HTTP/2.0` gives `BAD_VERSION` |
| ParseExamples.VersionNotANumber | src/http_messages.py:146-149 | `HTTP/abc`, which `float()` rejects, gives `BAD_VERSION` |
| ParseExamples.LoneBadMethod | src/http_messages.py:44-49 | `"PUT"`, a single field, gives `BAD_METHOD`: the method is checked before the missing target is indexed |
| ParseExamples.MissingTarget | src/http_messages.py:44-52 | `"GET"` passes the method check and then raises `IndexError` reading the target, with the method already set |
| ParseExamples.BadTargetBeforeMissingVersion | src/http_messages.py:51-58 | `"GET /x"` gives `BAD_TARGET`: the target is checked before the missing version is indexed |
| ParseExamples.MissingVersion | src/http_messages.py:51-58 | `"GET /"` passes method and target and then raises `IndexError` reading the version, with the target already set |
| ParseExamples.LineWithoutDelimiter | src/http_messages.py:81-90 | a header line `bad` makes `parse` run forever instead of skipping the line |

## Left out

- `src/server.py` is not part of this model. It covers accepter threads, the stop signal, shutdown and command-line parsing, which are concurrency and process plumbing.
- `src/sockets.py` is modelled only as the bytes a peer sends and the `read` limit. Address resolution, `bind`, `listen` and `accept` are operating-system I/O.
- `src/endpoints.py` is not part of this model. Its endpoint classes are unfinished and have no behaviour to state.
- Verbose printing through `vprint` in `src/clients.py` is left out, because it is output only and sits outside any `try`.
- LegacyHttp.LegacyParse: the `print` of the pieces at src/http.py:39 is assumed not to raise. It sits inside the `try`, so a failing write to standard output would be swallowed and the defaults would stay even with four pieces. The model does not cover that case.
- The `toString` defined inside the legacy `parse` is left out. It is a nested definition that is never called.
- Thread creation and thread identifiers are left out. They are concurrency plumbing.
- HttpMessages.ValidateVersion: `float()` and double equality are the parameter `toFloat`. Which texts Python accepts as numbers, and how they round, is not modelled, because that is floating-point parsing.
- Clients.Transact: the written message is kept as text. The UTF-8 encoding `write` applies before `sendall` is I/O.
- Clients.Converse: `recv`, `sendall` and `close` are assumed not to raise. In the source, a `ConnectionResetError` from `recv` (src/sockets.py:100) or a `BrokenPipeError` from `sendall` (src/sockets.py:109) would end the thread with the socket still open. These network failures are not modelled.
- Clients.ConverseClosesOnce: its "stays open exactly when" holds only under the same assumption that socket calls do not raise.
- Clients.Converse: decoding is the parameter `decode`. Which byte strings are valid UTF-8 is not modelled.
- Clients.Converse: a parser that never returns is recorded as `Hangs`. The thread then stays blocked for good, which the model does not try to describe further.
- Clients.Converse: `recv` is modelled as returning a prefix of everything the peer has sent. How much of it has arrived at the time of the call is a network timing question.

=== FILE: clients.dfy ===
/** The per-connection handler of `src/clients.py`: `ClientThread.converse`,
    `exit` and `transact`, over an abstract talker whose actions are recorded as
    events. The socket is replaced by the bytes the peer has sent, UTF-8
    decoding by the parameter `decode` (`None` when Python's decoder raises),
    and `float()` inside the parser by `toFloat`. */
module Clients {
  import opened Wrappers
  import opened PyStrings
  import opened HttpMessages

  newtype Byte = b: int | 0 <= b < 256

  /** `SocketTalker.read`'s default `limit`, handed to `recv`. */
  const ReadLimit: nat := 1024

  /** What the handler asks of its talker. */
  datatype Event = Read(limit: nat) | Write(message: string) | Close

  /** Why the handler thread dies with an exception. */
  datatype Failure =
    | DecodeOfNone                  // `str(None, "utf-8")`: a `TypeError`
    | DecodeError                   // the bytes are not valid UTF-8
    | ParserRaised(error: Exception)

  /** How `converse` ends. */
  datatype Exit = Finished | Crashed(failure: Failure) | Hangs

  /** The events `converse` produced, in order, and how it ended. */
  datatype Run = Run(trace: seq<Event>, exit: Exit)

  // ---------------------------------------------------------------------------
  // The response

  /** Everything the response carries before the code: the status text is the
      same whatever the code. */
  const ResponseHead: string := "HTTP 200 OK\r\n\r\nParse Error: "

  /** The only message `transact` writes. */
  function Response(code: nat): (msg: string)
    ensures |msg| > |ResponseHead| && msg[..|ResponseHead|] == ResponseHead
    ensures IsDecimal(msg[|ResponseHead|..])
  {
    var msg := ResponseHead + FormatDecimal(code);
    assert msg[|ResponseHead|..] == FormatDecimal(code);
    msg
  }

  /** Reads the code back out of a response; `None` for any other text. */
  function ResponseCode(msg: string): (code: Option<nat>)
    ensures code.Some? ==> |msg| > |ResponseHead| && msg[..|ResponseHead|] == ResponseHead
  {
    var n := |ResponseHead|;
    if |msg| > n && msg[..n] == ResponseHead && IsDecimal(msg[n..]) then
      Some(DecimalValue(msg[n..]))
    else
      None
  }

  /** Every code can be read back from its response. */
  lemma ResponseRoundTrip(code: nat)
    ensures ResponseCode(Response(code)) == Some(code)
  {
    var msg := Response(code);
    var n := |ResponseHead|;
    assert msg[..n] == ResponseHead;
    assert msg[n..] == FormatDecimal(code);
    DecimalRoundTrip(code);
  }

  /** A text that reads as a code is exactly that code's response, so different
      codes give different responses. */
  lemma ResponseExactly(msg: string, code: nat)
    ensures ResponseCode(msg) == Some(code) <==> msg == Response(code)
  {
    if msg == Response(code) {
      ResponseRoundTrip(code);
    }
    if ResponseCode(msg) == Some(code) {
      var n := |ResponseHead|;
      DecimalCanonical(msg[n..]);
      assert msg == msg[..n] + msg[n..];
    }
  }

  // ---------------------------------------------------------------------------
  // The talker

  /** `recv(limit)`: at most `limit` of the bytes the peer sent. */
  function Recv(available: seq<Byte>, limit: nat): (data: seq<Byte>)
    ensures |data| <= limit && |data| <= |available| && data == available[..|data|]
    ensures |data| < limit ==> data == available
  {
    if |available| <= limit then available else available[..limit]
  }

  /** `SocketTalker.read()`: the received bytes, or `None` when there are none. */
  function TalkerRead(available: seq<Byte>): (data: Option<seq<Byte>>)
    ensures data.None? <==> available == []
    ensures data.Some? ==> 1 <= |data.value| <= ReadLimit && data.value == Recv(available, ReadLimit)
  {
    var bytes := Recv(available, ReadLimit);
    if bytes == [] then None else Some(bytes)
  }

  // ---------------------------------------------------------------------------
  // The handler

  /** `transact(data)`: decode, parse, and write the response; an exception or a
      parser that never returns ends the thread before anything is written. */
  function Transact(data: Option<seq<Byte>>, decode: seq<Byte> -> Option<string>,
                    toFloat: string -> Option<real>): (r: Run)
    ensures r.exit == Finished <==> data.Some? && decode(data.value).Some?
                                    && Parse(decode(data.value).value, toFloat).outcome.Returned?
    ensures r.exit == Finished ==> r.trace == [Write(Response(Parse(decode(data.value).value, toFloat).outcome.code))]
    ensures r.exit != Finished ==> r.trace == []
  {
    match data
    case None => Run([], Crashed(DecodeOfNone))
    case Some(bytes) =>
      match decode(bytes)
      case None => Run([], Crashed(DecodeError))
      case Some(text) =>
        match Parse(text, toFloat).outcome
        case Returned(code) => Run([Write(Response(code))], Finished)
        case Raises(e) => Run([], Crashed(ParserRaised(e)))
        case Diverges => Run([], Hangs)
  }

  /** The request text the parser sees when the peer has sent `available`. */
  function Received(available: seq<Byte>, decode: seq<Byte> -> Option<string>): Option<string>
  {
    if available == [] then None else decode(Recv(available, ReadLimit))
  }

  /** `converse`: one read; after an empty read the socket is closed and control
      falls through into `transact(None)`; otherwise the parse code is written
      back and the socket closed. */
  method Converse(available: seq<Byte>, decode: seq<Byte> -> Option<string>,
                  toFloat: string -> Option<real>) returns (trace: seq<Event>, exit: Exit)
    ensures |trace| >= 1 && trace[0] == Read(ReadLimit)
    ensures forall i :: 1 <= i < |trace| ==> !trace[i].Read?
    ensures available == [] <==> exit == Crashed(DecodeOfNone)
    ensures available == [] ==> trace == [Read(ReadLimit), Close]
    ensures exit == Finished <==> Received(available, decode).Some?
                                  && Parse(Received(available, decode).value, toFloat).outcome.Returned?
    ensures exit == Finished ==>
              trace == [Read(ReadLimit), Write(Response(Parse(Received(available, decode).value, toFloat).outcome.code)), Close]
    ensures exit == Hangs <==> Received(available, decode).Some?
                               && Parse(Received(available, decode).value, toFloat).outcome.Diverges?
    ensures available != [] && exit != Finished ==> trace == [Read(ReadLimit)]
  {
    trace := [Read(ReadLimit)];
    var data := TalkerRead(available);
    if data == None {
      trace := trace + [Close];
    }
    var t := Transact(data, decode, toFloat);
    ghost var text := Received(available, decode);
    assert data.Some? ==> text == decode(data.value);
    trace := trace + t.trace;
    if t.exit != Finished {
      exit := t.exit;
      return;
    }
    trace := trace + [Close];
    exit := Finished;
  }

  /** The socket is closed at most once, and it is left open exactly when the
      thread dies on a decode failure or a raising parser, or hangs in it. */
  method ConverseClosesOnce(available: seq<Byte>, decode: seq<Byte> -> Option<string>,
                            toFloat: string -> Option<real>) returns (closes: nat)
    ensures closes <= 1
    ensures closes == 0 <==>
              available != [] && (Received(available, decode).None?
                                  || !Parse(Received(available, decode).value, toFloat).outcome.Returned?)
  {
    var trace, exit := Converse(available, decode, toFloat);
    closes := multiset(trace)[Close];
  }
}

=== FILE: http_messages.dfy ===
/** The request parser of `src/http_messages.py`: `HTTPRequest.parse` and the
    `HTTPEnforcer` rules it applies. The model follows the code, including where it
    departs from HTTP/1.1 message syntax: header fields are cut at `": "`, versions
    are compared as numbers after every `"HTTP/"` is deleted, a start line with too
    few fields raises `IndexError`, and a non-empty header line without `": "` makes
    the header loop spin forever.

    Python's `float()` is the parameter `toFloat`: `None` when `float()` raises,
    otherwise the value of the resulting double, written as a real number (the
    literal `1.1` of the allow-list stands for the double nearest to 1.1). */
module HttpMessages {
  import opened Wrappers
  import opened PyStrings

  // ---------------------------------------------------------------------------
  // Error codes and enforcer rules

  /** The `HTTPParseError` values: the non-zero codes `parse` is declared to return. */
  const ParseErrorCode: nat := 1
  const BadMethodCode: nat := 2
  const BadTargetCode: nat := 3
  const BadVersionCode: nat := 4
  const RequestTooLongCode: nat := 5

  /** The rules `HTTPEnforcer.__init__` installs. */
  const HeaderLimit: nat := 64
  const AllowedMethods: seq<string> := ["GET", "POST"]
  const AllowedTargets: seq<string> := ["/", "/ifttt"]
  const AllowedVersions: seq<real> := [1.1]

  /** `validate_method`: 0 for an allowed method, otherwise `BAD_METHOD`. */
  function ValidateMethod(httpMethod: string): (code: nat)
    ensures code == 0 <==> httpMethod == "GET" || httpMethod == "POST"
    ensures code != 0 ==> code == BadMethodCode
  {
    if httpMethod in AllowedMethods then 0 else BadMethodCode
  }

  /** `validate_target`: 0 for an allowed target, otherwise `BAD_TARGET`. */
  function ValidateTarget(target: string): (code: nat)
    ensures code == 0 <==> target == "/" || target == "/ifttt"
    ensures code != 0 ==> code == BadTargetCode
  {
    if target in AllowedTargets then 0 else BadTargetCode
  }

  /** `validate_version`: `BAD_VERSION` both when `float()` rejects the text and when
      the number it yields is not an allowed version. */
  function ValidateVersion(version: string, toFloat: string -> Option<real>): (code: nat)
    ensures code == 0 <==> toFloat(version) == Some(1.1)
    ensures code != 0 ==> code == BadVersionCode
  {
    match toFloat(version)
    case None => BadVersionCode
    case Some(v) => if v in AllowedVersions then 0 else BadVersionCode
  }

  // ---------------------------------------------------------------------------
  // The request record and the outcome of `parse`

  /** `self.version` holds the stripped text until it is converted by `float()`. */
  datatype Version = VersionText(text: string) | VersionNumber(value: real)

  /** The fields of an `HTTPRequest` object; `None` is Python's `None`. */
  datatype Request = Request(
    text: string,
    httpMethod: Option<string>,
    target: Option<string>,
    version: Option<Version>,
    headers: map<string, string>,
    body: Option<string>)

  /** `HTTPRequest.__init__`: every parsed field unset, headers empty. */
  function NewRequest(text: string): Request
  {
    Request(text, None, None, None, map[], None)
  }

  /** The only exception `parse` can raise. */
  datatype Exception = IndexError

  /** How a call to `parse` ends: it returns an integer code (0 for success), it
      raises, or it never returns. */
  datatype Outcome = Returned(code: nat) | Raises(exception: Exception) | Diverges

  /** The outcome together with the request object as `parse` left it: fields
      assigned before an early exit keep their values. */
  datatype Parsed = Parsed(outcome: Outcome, request: Request)

  // ---------------------------------------------------------------------------
  // Pieces of the request text

  const CRLF: string := "\r\n"
  const FieldSep: string := ": "

  /** The text cut into lines at every `"\r\n"`. */
  function Lines(text: string): (lines: seq<string>)
    ensures |lines| >= 1
    ensures |lines| >= 2 <==> Contains(text, CRLF)
    ensures forall k :: 0 <= k < |lines| ==> !Contains(lines[k], CRLF)
    ensures Join(lines, CRLF) == text
  {
    SplitSpec(text, CRLF);
    JoinSplit(text, CRLF);
    Split(text, CRLF)
  }

  /** The start line cut at every single space. */
  function StartFields(text: string): (fields: seq<string>)
    ensures |fields| >= 1
    ensures |fields| >= 2 <==> Contains(Lines(text)[0], " ")
    ensures forall k :: 0 <= k < |fields| ==> !Contains(fields[k], " ")
    ensures Join(fields, " ") == Lines(text)[0]
  {
    SplitSpec(Lines(text)[0], " ");
    JoinSplit(Lines(text)[0], " ");
    Split(Lines(text)[0], " ")
  }

  /** The version field with surrounding whitespace and every `"HTTP/"` removed. */
  function VersionString(field: string): (v: string)
    ensures !Contains(Strip(field), "HTTP/") ==> v == Strip(field)
    ensures Contains(Strip(field), "HTTP/") ==> |v| <= |Strip(field)| - 5
  {
    RemoveShortens(Strip(field), "HTTP/");
    ReplaceAll(Strip(field), "HTTP/", "")
  }

  /** A header line: one that `split(": ")` cuts into at least two pieces. */
  predicate IsHeaderLine(line: string)
  {
    |Split(line, FieldSep)| >= 2
  }

  /** A header line is exactly a line containing `": "`; in particular it is never
      the empty line. */
  lemma HeaderLineHasDelimiter(line: string)
    ensures IsHeaderLine(line) <==> Contains(line, FieldSep)
    ensures IsHeaderLine(line) ==> line != ""
  {
    SplitSpec(line, FieldSep);
  }

  /** The stripped text before the first `": "`. */
  function Key(line: string): (key: string)
    ensures Trimmed(key)
  {
    StripTrimmed(Split(line, FieldSep)[0]);
    Strip(Split(line, FieldSep)[0])
  }

  /** The stripped text between the first and the second `": "` (or the end). */
  function Value(line: string): (value: string)
    requires IsHeaderLine(line)
    ensures Trimmed(value)
  {
    StripTrimmed(Split(line, FieldSep)[1]);
    Strip(Split(line, FieldSep)[1])
  }

  /** A name without `": "` cannot run into the `": "` written after it. */
  lemma DelimiterAfter(name: string)
    requires !Contains(name, FieldSep)
    ensures CleanBefore(name, FieldSep)
  {
    var s := name + FieldSep;
    forall j | 0 <= j < |name|
      ensures !OccursAt(s, FieldSep, j)
    {
      if j + 2 <= |name| {
        assert s[j..j + 2] == name[j..j + 2];
        assert !OccursAt(name, FieldSep, j);
      } else {
        assert s[j + 1] == ':';
      }
    }
  }

  /** The key of a header line is the stripped text before its first `": "` and
      the value is the stripped text up to the second `": "`; whatever follows a
      second `": "` is dropped. */
  lemma HeaderLineParts(name: string, value: string, tail: string)
    requires !Contains(name, FieldSep) && !Contains(value, FieldSep)
    requires tail == "" || (|tail| >= 2 && tail[..2] == FieldSep)
    ensures IsHeaderLine(name + FieldSep + value + tail)
    ensures Key(name + FieldSep + value + tail) == Strip(name)
    ensures Value(name + FieldSep + value + tail) == Strip(value)
  {
    var line := name + FieldSep + (value + tail);
    assert name + FieldSep + value + tail == line;
    DelimiterAfter(name);
    SplitGlued(name, FieldSep, value + tail);
    if tail == "" {
      assert value + tail == value;
      SplitAbsent(value, FieldSep);
    } else {
      var rest := tail[2..];
      assert value + tail == value + FieldSep + rest;
      DelimiterAfter(value);
      SplitGlued(value, FieldSep, rest);
    }
  }

  // ---------------------------------------------------------------------------
  // The header loop

  /** How the header `while` loop ends. */
  datatype Scan =
    | Exhausted(headers: map<string, string>)            // `index < len(lines)` became false
    | BlankAt(headers: map<string, string>, index: nat)  // `break` on an empty line
    | TooLong(headers: map<string, string>)              // `return REQUEST_TOO_LONG`
    | Stuck(headers: map<string, string>, index: nat)    // `continue` without `index += 1`

  /** One run of the header loop from `index`, with the headers collected so far. */
  function ScanHeaders(lines: seq<string>, index: nat, headers: map<string, string>): (r: Scan)
    requires index <= HeaderLimit && |headers| <= index
    ensures |r.headers| <= HeaderLimit
    ensures r.BlankAt? ==> r.index < |lines| && lines[r.index] == ""
    ensures r.Stuck? ==> r.index < |lines| && lines[r.index] != "" && !IsHeaderLine(lines[r.index])
    ensures r.TooLong? ==> HeaderLimit < |lines|
    decreases |lines| - index
  {
    if index >= |lines| then Exhausted(headers)
    else if index >= HeaderLimit then TooLong(headers)
    else if lines[index] == "" then BlankAt(headers, index)
    else
      var header := Split(lines[index], FieldSep);
      if |header| < 2 then Stuck(headers, index)
      else
        var key := Strip(header[0]);
        ScanHeaders(lines, index + 1, headers[key := Strip(header[1])])
  }

  /** The body: every line after the blank line at `blank`, glued together, or
      `None` when that is empty. */
  function BodyAfter(lines: seq<string>, blank: nat): (body: Option<string>)
    requires blank < |lines|
    ensures body != Some("")
  {
    if blank < |lines| - 1 && Concat(lines[blank + 1..]) != "" then
      Some(Concat(lines[blank + 1..]))
    else
      None
  }

  /** Lines 68-109 of `parse`: the header loop and the body, on the request whose
      start line has been accepted. */
  function Collect(lines: seq<string>, request: Request): (r: Parsed)
    requires request.body == None
    ensures r.request.text == request.text
    ensures r.outcome.Returned? ==> r.outcome.code in {0, RequestTooLongCode}
    ensures r.outcome == Returned(0) ==>
              r.request == request.(headers := r.request.headers, body := r.request.body)
    ensures |r.request.headers| <= HeaderLimit
    ensures r.request.body != Some("")
  {
    match ScanHeaders(lines, 0, map[])
    case TooLong(h) => Parsed(Returned(RequestTooLongCode), request.(headers := h))
    case Stuck(h, _) => Parsed(Diverges, request.(headers := h))
    case Exhausted(h) => Parsed(Returned(0), request.(headers := h))
    case BlankAt(h, i) => Parsed(Returned(0), request.(headers := h, body := BodyAfter(lines, i)))
  }

  /** `HTTPRequest(text).parse()`. */
  function Parse(text: string, toFloat: string -> Option<real>): (r: Parsed)
    ensures r.request.text == text
    ensures r.outcome != Returned(ParseErrorCode)
    ensures r.outcome.Returned? ==> r.outcome.code in {0, 2, 3, 4, 5}
    ensures r.outcome == Returned(0) ==>
              && r.request.httpMethod in {Some("GET"), Some("POST")}
              && r.request.target in {Some("/"), Some("/ifttt")}
              && r.request.version == Some(VersionNumber(1.1))
    ensures |r.request.headers| <= HeaderLimit
    ensures r.request.body != Some("")
  {
    var fields := StartFields(text);
    var httpMethod := Strip(fields[0]);
    var withMethod := NewRequest(text).(httpMethod := Some(httpMethod));
    if ValidateMethod(httpMethod) != 0 then
      Parsed(Returned(ValidateMethod(httpMethod)), withMethod)
    else if |fields| < 2 then
      Parsed(Raises(IndexError), withMethod)
    else
      var target := Strip(fields[1]);
      var withTarget := withMethod.(target := Some(target));
      if ValidateTarget(target) != 0 then
        Parsed(Returned(ValidateTarget(target)), withTarget)
      else if |fields| < 3 then
        Parsed(Raises(IndexError), withTarget)
      else
        var version := VersionString(fields[2]);
        var withText := withTarget.(version := Some(VersionText(version)));
        if ValidateVersion(version, toFloat) != 0 then
          Parsed(Returned(ValidateVersion(version, toFloat)), withText)
        else
          var withVersion := withText.(version := Some(VersionNumber(toFloat(version).value)));
          Collect(Lines(text)[1..], withVersion)
  }

  // ---------------------------------------------------------------------------
  // Reference definitions for the header section

  /** Where the header loop stops: at the first line that is not a header line,
      at the end of the lines, or at the header limit, whichever comes first. */
  function HeaderStop(lines: seq<string>): (k: nat)
    ensures k <= |lines| && k <= HeaderLimit
    ensures forall i :: 0 <= i < k ==> IsHeaderLine(lines[i])
    ensures k < |lines| && k < HeaderLimit ==> !IsHeaderLine(lines[k])
  {
    HeaderStopFrom(lines, 0)
  }

  function HeaderStopFrom(lines: seq<string>, i: nat): (k: nat)
    requires i <= |lines| && i <= HeaderLimit
    requires forall j :: 0 <= j < i ==> IsHeaderLine(lines[j])
    ensures i <= k <= |lines| && k <= HeaderLimit
    ensures forall j :: 0 <= j < k ==> IsHeaderLine(lines[j])
    ensures k < |lines| && k < HeaderLimit ==> !IsHeaderLine(lines[k])
    decreases |lines| - i
  {
    if i == |lines| || i == HeaderLimit || !IsHeaderLine(lines[i]) then i
    else HeaderStopFrom(lines, i + 1)
  }

  /** The dictionary obtained by storing `(name, value)` pairs one after another. */
  function Store(entries: seq<(string, string)>): (h: map<string, string>)
    ensures |h| <= |entries|
  {
    if |entries| == 0 then map[]
    else
      var last := entries[|entries| - 1];
      Store(entries[..|entries| - 1])[last.0 := last.1]
  }

  /** A name is stored exactly when some pair carries it, and it maps to the value
      of the last pair that carries it: later duplicates overwrite earlier ones. */
  lemma StoreLastWins(entries: seq<(string, string)>)
    ensures forall name :: name in Store(entries) <==> exists i :: 0 <= i < |entries| && entries[i].0 == name
    ensures forall i :: 0 <= i < |entries| && LastFor(entries, i) ==>
              entries[i].0 in Store(entries) && Store(entries)[entries[i].0] == entries[i].1
  {
    StoreKeys(entries);
    StoreValues(entries);
  }

  /** No later pair carries the name of pair `i`. */
  predicate LastFor(entries: seq<(string, string)>, i: nat)
    requires i < |entries|
  {
    forall j :: i < j < |entries| ==> entries[j].0 != entries[i].0
  }

  lemma {:induction false} StoreKeys(entries: seq<(string, string)>)
    ensures forall name :: name in Store(entries) <==> exists i :: 0 <= i < |entries| && entries[i].0 == name
  {
    if |entries| > 0 {
      var n := |entries| - 1;
      var prefix := entries[..n];
      StoreKeys(prefix);
      assert Store(entries) == Store(prefix)[entries[n].0 := entries[n].1];
      forall name
        ensures name in Store(entries) <==> exists i :: 0 <= i < |entries| && entries[i].0 == name
      {
        if name in Store(entries) && name != entries[n].0 {
          var i :| 0 <= i < n && prefix[i].0 == name;
          assert entries[i].0 == name;
        }
        if name !in Store(entries) {
          forall i | 0 <= i < n
            ensures entries[i].0 != name
          {
            assert prefix[i] == entries[i];
          }
        }
      }
    }
  }

  lemma {:induction false} StoreValues(entries: seq<(string, string)>)
    ensures forall i :: 0 <= i < |entries| && LastFor(entries, i) ==>
              entries[i].0 in Store(entries) && Store(entries)[entries[i].0] == entries[i].1
  {
    if |entries| > 0 {
      var n := |entries| - 1;
      var prefix := entries[..n];
      StoreValues(prefix);
      assert Store(entries) == Store(prefix)[entries[n].0 := entries[n].1];
      forall i | 0 <= i < n && LastFor(entries, i)
        ensures entries[i].0 in Store(entries) && Store(entries)[entries[i].0] == entries[i].1
      {
        assert prefix[i] == entries[i];
        assert entries[n].0 != entries[i].0;
        forall j | i < j < n
          ensures prefix[j].0 != prefix[i].0
        {
          assert prefix[j] == entries[j];
        }
        assert LastFor(prefix, i);
      }
    }
  }

  /** The `(name, value)` pair each header line contributes. */
  function Entries(lines: seq<string>): (e: seq<(string, string)>)
    requires forall i :: 0 <= i < |lines| ==> IsHeaderLine(lines[i])
    ensures |e| == |lines|
    ensures forall i :: 0 <= i < |lines| ==> e[i] == (Key(lines[i]), Value(lines[i]))
  {
    seq(|lines|, i requires 0 <= i < |lines| && IsHeaderLine(lines[i]) => (Key(lines[i]), Value(lines[i])))
  }

  /** The dictionary obtained by storing the header lines one after another. */
  function HeadersOf(lines: seq<string>): (h: map<string, string>)
    requires forall i :: 0 <= i < |lines| ==> IsHeaderLine(lines[i])
    ensures |h| <= |lines|
  {
    Store(Entries(lines))
  }

  /** Appending one header line stores its pair on top of what came before. */
  lemma HeadersOfSnoc(lines: seq<string>, line: string)
    requires forall i :: 0 <= i < |lines| ==> IsHeaderLine(lines[i])
    requires IsHeaderLine(line)
    ensures HeadersOf(lines + [line]) == HeadersOf(lines)[Key(line) := Value(line)]
  {
    var all := lines + [line];
    assert Entries(all)[..|lines|] == Entries(lines);
  }

  /** A header name is present exactly when some header line names it, and it maps
      to the value of the last line that names it. */
  lemma HeadersLastWins(lines: seq<string>)
    requires forall i :: 0 <= i < |lines| ==> IsHeaderLine(lines[i])
    ensures forall key :: key in HeadersOf(lines) <==> exists i :: 0 <= i < |lines| && Key(lines[i]) == key
    ensures forall i :: 0 <= i < |lines| && (forall j :: i < j < |lines| ==> Key(lines[j]) != Key(lines[i])) ==>
              Key(lines[i]) in HeadersOf(lines) && HeadersOf(lines)[Key(lines[i])] == Value(lines[i])
  {
    var e := Entries(lines);
    StoreLastWins(e);
    forall key | key in HeadersOf(lines)
      ensures exists i :: 0 <= i < |lines| && Key(lines[i]) == key
    {
      var i :| 0 <= i < |e| && e[i].0 == key;
      assert Key(lines[i]) == key;
    }
    forall key, i | 0 <= i < |lines| && Key(lines[i]) == key
      ensures key in HeadersOf(lines)
    {
      assert e[i].0 == key;
    }
    forall i | 0 <= i < |lines| && (forall j :: i < j < |lines| ==> Key(lines[j]) != Key(lines[i]))
      ensures Key(lines[i]) in HeadersOf(lines) && HeadersOf(lines)[Key(lines[i])] == Value(lines[i])
    {
      forall j | i < j < |e|
        ensures e[j].0 != e[i].0
      {
        assert Key(lines[j]) != Key(lines[i]);
      }
      assert LastFor(e, i);
    }
  }

  /** How the header loop ends, predicted from `HeaderStop` alone. */
  function ExpectedScan(lines: seq<string>): Scan
  {
    var k := HeaderStop(lines);
    var h := HeadersOf(lines[..k]);
    if k == |lines| then Exhausted(h)
    else if k == HeaderLimit then TooLong(h)
    else if lines[k] == "" then BlankAt(h, k)
    else Stuck(h, k)
  }

  /** From any line before the stop, the loop runs on to the stop, given the
      dictionary of the lines before it. */
  lemma {:induction false} ScanFrom(lines: seq<string>, i: nat, k: nat)
    requires k == HeaderStop(lines) && i <= k
    ensures ScanHeaders(lines, i, HeadersOf(lines[..i])) == ScanHeaders(lines, k, HeadersOf(lines[..k]))
    decreases k - i
  {
    if i < k {
      ScanStep(lines, i);
      ScanFrom(lines, i + 1, k);
    }
  }

  /** A header line before the stop stores its pair and moves on. */
  lemma ScanStep(lines: seq<string>, i: nat)
    requires i < HeaderStop(lines)
    ensures ScanHeaders(lines, i, HeadersOf(lines[..i])) == ScanHeaders(lines, i + 1, HeadersOf(lines[..i + 1]))
  {
    var line := lines[i];
    HeaderLineHasDelimiter(line);
    assert lines[..i + 1] == lines[..i] + [line];
    HeadersOfSnoc(lines[..i], line);
  }

  /** At the stop the loop ends at once. */
  lemma ScanAtStop(lines: seq<string>)
    ensures ScanHeaders(lines, HeaderStop(lines), HeadersOf(lines[..HeaderStop(lines)])) == ExpectedScan(lines)
  {
  }

  /** The header loop, run from the first line after the start line with an empty
      dictionary, ends exactly as `ExpectedScan` predicts. */
  lemma HeaderLoopMatchesStop(lines: seq<string>)
    ensures ScanHeaders(lines, 0, map[]) == ExpectedScan(lines)
  {
    ScanFrom(lines, 0, HeaderStop(lines));
    ScanAtStop(lines);
    assert lines[..0] == [];
  }

  // ---------------------------------------------------------------------------
  // What `parse` does, stage by stage

  /** The method field passes `validate_method`. */
  predicate MethodAccepted(text: string)
  {
    ValidateMethod(Strip(StartFields(text)[0])) == 0
  }

  /** The method field and the target field pass their checks. */
  predicate TargetAccepted(text: string)
  {
    MethodAccepted(text) && |StartFields(text)| >= 2 && ValidateTarget(Strip(StartFields(text)[1])) == 0
  }

  /** All three start-line fields exist and pass their checks. */
  predicate StartLineAccepted(text: string, toFloat: string -> Option<real>)
  {
    TargetAccepted(text) && |StartFields(text)| >= 3
      && ValidateVersion(VersionString(StartFields(text)[2]), toFloat) == 0
  }

  /** The start-line checks run in the order method, target, version, and each
      failure is reported by its own code; a missing field raises `IndexError`
      only once the fields before it were accepted. */
  lemma StartLineStages(text: string, toFloat: string -> Option<real>)
    ensures var r := Parse(text, toFloat);
            var f := StartFields(text);
            && (r.outcome == Returned(BadMethodCode) <==> Strip(f[0]) != "GET" && Strip(f[0]) != "POST")
            && (r.outcome == Returned(BadTargetCode) <==>
                  MethodAccepted(text) && |f| >= 2 && Strip(f[1]) != "/" && Strip(f[1]) != "/ifttt")
            && (r.outcome == Returned(BadVersionCode) <==>
                  TargetAccepted(text) && |f| >= 3 && toFloat(VersionString(f[2])) != Some(1.1))
            && (r.outcome == Raises(IndexError) <==>
                  MethodAccepted(text) && (|f| < 2 || (TargetAccepted(text) && |f| < 3)))
            && ((r.outcome.Returned? && r.outcome.code in {0, RequestTooLongCode}) || r.outcome.Diverges? <==>
                  StartLineAccepted(text, toFloat))
  {
  }

  /** An early exit leaves the request as far as it got: the fields assigned before
      the failing check keep their values, later ones stay `None`, and neither
      headers nor body are touched. */
  lemma EarlyExitState(text: string, toFloat: string -> Option<real>)
    ensures var r := Parse(text, toFloat);
            var f := StartFields(text);
            !StartLineAccepted(text, toFloat) ==>
              && r.request.httpMethod == Some(Strip(f[0]))
              && r.request.headers == map[]
              && r.request.body == None
              && (r.request.target == None <==> !MethodAccepted(text) || |f| < 2)
              && (r.request.target != None ==> r.request.target == Some(Strip(f[1])))
              && (r.request.version == None <==> !TargetAccepted(text) || |f| < 3)
              && (r.request.version != None ==> r.request.version == Some(VersionText(VersionString(f[2]))))
  {
  }

  /** The lines after the start line. */
  function HeaderLines(text: string): seq<string>
  {
    Lines(text)[1..]
  }

  /** Once the start line is accepted, `parse` ends as the header lines dictate:
      with `k` the number of leading header lines (at most 64), it reports
      `REQUEST_TOO_LONG` when 64 header lines are followed by anything, spins when
      the line at `k` is neither a header nor blank, and otherwise succeeds; the
      dictionary holds the first `k` header lines with later duplicates winning,
      and the body is everything after the blank line, glued, unless that is empty. */
  lemma AfterStartLine(text: string, toFloat: string -> Option<real>)
    requires StartLineAccepted(text, toFloat)
    ensures var r := Parse(text, toFloat);
            var f := StartFields(text);
            var lines := HeaderLines(text);
            var k := HeaderStop(lines);
            && r.request.httpMethod == Some(Strip(f[0]))
            && r.request.target == Some(Strip(f[1]))
            && r.request.version == Some(VersionNumber(1.1))
            && r.request.headers == HeadersOf(lines[..k])
            && (r.outcome == Returned(RequestTooLongCode) <==> k == HeaderLimit && k < |lines|)
            && (r.outcome == Diverges <==> k < |lines| && k < HeaderLimit && lines[k] != "")
            && (r.outcome == Returned(0) <==> k == |lines| || (k < HeaderLimit && lines[k] == ""))
            && (r.request.body.Some? <==>
                  k < |lines| - 1 && k < HeaderLimit && lines[k] == "" && Concat(lines[k + 1..]) != "")
            && (r.request.body.Some? ==> r.request.body == Some(Concat(lines[k + 1..])))
  {
    var f := StartFields(text);
    var accepted := NewRequest(text).(httpMethod := Some(Strip(f[0])), target := Some(Strip(f[1])),
                                      version := Some(VersionNumber(1.1)));
    assert Parse(text, toFloat) == Collect(HeaderLines(text), accepted);
    HeaderLoopMatchesStop(HeaderLines(text));
  }

  /** `REQUEST_TOO_LONG` comes exactly from an accepted start line followed by more
      than 64 lines whose first 64 are all header lines: the 65th line is looked at
      only to see that it exists, so even a blank one does not save the request. */
  lemma TooLongExactly(text: string, toFloat: string -> Option<real>)
    ensures var lines := HeaderLines(text);
            Parse(text, toFloat).outcome == Returned(RequestTooLongCode) <==>
              && StartLineAccepted(text, toFloat)
              && |lines| > HeaderLimit
              && forall i :: 0 <= i < HeaderLimit ==> IsHeaderLine(lines[i])
  {
    StartLineStages(text, toFloat);
    if StartLineAccepted(text, toFloat) {
      AfterStartLine(text, toFloat);
      var lines := HeaderLines(text);
      var k := HeaderStop(lines);
      if |lines| > HeaderLimit && forall i :: 0 <= i < HeaderLimit ==> IsHeaderLine(lines[i]) {
      }
    }
  }

  /** `parse` never returns: exactly when the start line is accepted and, among
      the first 64 header lines, the first one that is not a header line is not
      blank either. */
  lemma DivergesExactly(text: string, toFloat: string -> Option<real>)
    ensures var lines := HeaderLines(text);
            Parse(text, toFloat).outcome == Diverges <==>
              && StartLineAccepted(text, toFloat)
              && exists k :: 0 <= k < |lines| && k < HeaderLimit && lines[k] != "" && !IsHeaderLine(lines[k])
                   && forall i :: 0 <= i < k ==> IsHeaderLine(lines[i])
  {
    StartLineStages(text, toFloat);
    if StartLineAccepted(text, toFloat) {
      AfterStartLine(text, toFloat);
      FirstNonHeader(HeaderLines(text));
    }
  }

  /** Some line before the limit is neither a header line nor blank, with only
      header lines before it, exactly when the header loop stops at such a line. */
  lemma FirstNonHeader(lines: seq<string>)
    ensures var k := HeaderStop(lines);
            (exists j :: 0 <= j < |lines| && j < HeaderLimit && lines[j] != "" && !IsHeaderLine(lines[j])
                         && forall i :: 0 <= i < j ==> IsHeaderLine(lines[i]))
            <==> k < |lines| && k < HeaderLimit && lines[k] != ""
  {
    if exists j :: 0 <= j < |lines| && j < HeaderLimit && lines[j] != "" && !IsHeaderLine(lines[j])
                   && forall i :: 0 <= i < j ==> IsHeaderLine(lines[i]) {
      var j :| 0 <= j < |lines| && j < HeaderLimit && lines[j] != "" && !IsHeaderLine(lines[j])
                 && forall i :: 0 <= i < j ==> IsHeaderLine(lines[i]);
      StopAtFirstNonHeader(lines, j);
    }
    var k := HeaderStop(lines);
    if k < |lines| && k < HeaderLimit && lines[k] != "" {
      assert !IsHeaderLine(lines[k]);
    }
  }

  /** The header loop stops at the first line that is not a header line, when
      that comes before the limit. */
  lemma StopAtFirstNonHeader(lines: seq<string>, j: nat)
    requires j < |lines| && j < HeaderLimit && !IsHeaderLine(lines[j])
    requires forall i :: 0 <= i < j ==> IsHeaderLine(lines[i])
    ensures HeaderStop(lines) == j
  {
  }
}

=== FILE: legacy_http.dfy ===
/** The first-draft request parser of `src/http.py`. It reads only the start
    line: every carriage return becomes a space, the text is cut at the first
    three spaces, and the method, target and version are taken from the first
    three pieces. Any failure is swallowed, leaving the defaults in place. */
module LegacyHttp {
  import opened Wrappers
  import opened PyStrings

  /** The defaults `HTTPRequest.__init__` sets before it calls `parse`. */
  const DefaultVersion: real := 1.0
  const Version11: real := 1.1

  /** The fields of the legacy `HTTPRequest`. */
  datatype LegacyRequest = LegacyRequest(
    requestString: string,
    httpMethod: Option<string>,
    uri: Option<string>,
    version: real,
    headers: seq<string>)

  /** The request string with every `"\r"` turned into `" "`. */
  function Normalize(s: string): (t: string)
    ensures |t| == |s|
    ensures forall k :: 0 <= k < |s| ==> t[k] == (if s[k] == '\r' then ' ' else s[k])
    ensures Avoids(t, '\r')
  {
    ReplaceCharPointwise(s, '\r', ' ');
    ReplaceAll(s, "\r", " ")
  }

  /** `split(" ", 3)` of the normalised request string. */
  function Pieces(s: string): (pieces: seq<string>)
    ensures 1 <= |pieces| <= 4
  {
    SplitN(Normalize(s), " ", 3)
  }

  /** `parse`: with exactly four pieces the method and target are the first two
      pieces as they are, and the version becomes 1.1 when `"1.1"` occurs anywhere
      in the third; otherwise the raised exception is swallowed and nothing
      changes. */
  function LegacyParse(req: LegacyRequest): (r: LegacyRequest)
    ensures r.requestString == req.requestString && r.headers == req.headers
    ensures r.version in {req.version, Version11}
    ensures |Pieces(req.requestString)| != 4 ==> r == req
  {
    var pieces := Pieces(req.requestString);
    if |pieces| != 4 then req
    else
      req.(httpMethod := Some(pieces[0]),
           uri := Some(pieces[1]),
           version := if Contains(pieces[2], "1.1") then Version11 else req.version)
  }

  /** `HTTPRequest(reqstr)`: the defaults, then `parse`. */
  function Construct(reqstr: string): (r: LegacyRequest)
    ensures r.requestString == reqstr
    ensures r.headers == []
    ensures r.version == DefaultVersion || r.version == Version11
  {
    LegacyParse(LegacyRequest(reqstr, None, None, DefaultVersion, []))
  }

  // ---------------------------------------------------------------------------
  // Properties

  /** Normalising maps the text character by character and leaves no carriage
      return; the pieces join back to the normalised text, none of them holds a
      carriage return, and every piece but the last holds no space. */
  lemma PiecesSpec(s: string)
    ensures |Normalize(s)| == |s|
    ensures forall k :: 0 <= k < |s| ==> Normalize(s)[k] == (if s[k] == '\r' then ' ' else s[k])
    ensures Join(Pieces(s), " ") == Normalize(s)
    ensures forall k :: 0 <= k < |Pieces(s)| - 1 ==> !Contains(Pieces(s)[k], " ")
    ensures forall k :: 0 <= k < |Pieces(s)| ==> CountChar(Pieces(s)[k], '\r') == 0
  {
    var t := Normalize(s);
    ReplaceCharPointwise(s, '\r', ' ');
    JoinSplitN(t, " ", 3);
    SplitNIsBoundedSplit(t, " ", 3);
    SplitSpec(t, " ");
    AvoidsCountsZero(t, '\r');
    forall k | 0 <= k < |Pieces(s)|
      ensures CountChar(Pieces(s)[k], '\r') == 0
    {
      PieceCount(Pieces(s), k);
    }
  }

  /** Each piece of a join is counted in the joined text. */
  lemma {:induction false} PieceCount(pieces: seq<string>, k: nat)
    requires k < |pieces|
    ensures CountChar(pieces[k], '\r') <= CountChar(Join(pieces, " "), '\r')
    decreases |pieces|
  {
    if |pieces| > 1 {
      var tail := pieces[1..];
      JoinCons(pieces[0], tail, " ");
      assert [pieces[0]] + tail == pieces;
      CountCharConcat(pieces[0] + " ", Join(tail, " "), '\r');
      CountCharConcat(pieces[0], " ", '\r');
      if k > 0 {
        PieceCount(tail, k - 1);
      }
    }
  }

  /** `parse` succeeds exactly when the request string holds at least three
      characters that are spaces or carriage returns. */
  lemma SucceedsIff(s: string)
    ensures |Pieces(s)| == 4 <==> CountChar(s, ' ') + CountChar(s, '\r') >= 3
    ensures Construct(s).httpMethod.Some? <==> CountChar(s, ' ') + CountChar(s, '\r') >= 3
    ensures Construct(s).uri.Some? <==> CountChar(s, ' ') + CountChar(s, '\r') >= 3
  {
    var t := Normalize(s);
    ReplaceCharCount(s, '\r', ' ');
    SplitCharCount(t, ' ');
    SplitNIsBoundedSplit(t, " ", 3);
  }

  /** A word: no space and no carriage return. */
  predicate IsWord(w: string)
  {
    Avoids(w, ' ') && Avoids(w, '\r')
  }

  /** Normalising a text whose first carriage return or space comes after `a`. */
  lemma NormalizeGlued(a: string, end: char, rest: string)
    requires Avoids(a, '\r')
    requires end == ' ' || end == '\r'
    ensures Normalize(a + [end] + rest) == a + " " + Normalize(rest)
  {
    var s := a + [end] + rest;
    var t := Normalize(s);
    var r := Normalize(rest);
    ReplaceCharPointwise(s, '\r', ' ');
    ReplaceCharPointwise(rest, '\r', ' ');
    assert |t| == |a + " " + r|;
    forall k | 0 <= k < |t|
      ensures t[k] == (a + " " + r)[k]
    {
      if k > |a| {
        assert s[k] == rest[k - |a| - 1];
      }
    }
  }

  /** A separator the legacy parser cuts at once carriage returns are spaces. */
  predicate IsSep(c: char)
  {
    c == ' ' || c == '\r'
  }

  /** Three words, each ended by a space or a carriage return, are the first
      three pieces; the normalised remainder is the fourth. */
  lemma PiecesOfWords(m: string, e1: char, u: string, e2: char, v: string, e3: char, rest: string)
    requires IsWord(m) && IsWord(u) && IsWord(v)
    requires IsSep(e1) && IsSep(e2) && IsSep(e3)
    ensures Pieces(m + [e1] + u + [e2] + v + [e3] + rest) == [m, u, v, Normalize(rest)]
  {
    var r := Normalize(rest);
    var third := v + " " + r;
    var second := u + " " + third;
    NormalizeWords(m, e1, u, e2, v, e3, rest);
    WordCut(m, second, 3);
    WordCut(u, third, 2);
    WordCut(v, r, 1);
    assert SplitN(r, " ", 0) == [r];
  }

  /** Normalising three words and their separators glues them with single spaces. */
  lemma NormalizeWords(m: string, e1: char, u: string, e2: char, v: string, e3: char, rest: string)
    requires IsWord(m) && IsWord(u) && IsWord(v)
    requires IsSep(e1) && IsSep(e2) && IsSep(e3)
    ensures Normalize(m + [e1] + u + [e2] + v + [e3] + rest) == m + " " + (u + " " + (v + " " + Normalize(rest)))
  {
    var y := v + [e3] + rest;
    var x := u + [e2] + y;
    assert m + [e1] + u + [e2] + v + [e3] + rest == m + [e1] + x;
    NormalizeGlued(m, e1, x);
    NormalizeGlued(u, e2, y);
    NormalizeGlued(v, e3, rest);
  }

  /** Cutting at the space after a word. */
  lemma WordCut(w: string, b: string, maxsplit: nat)
    requires IsWord(w) && maxsplit >= 1
    ensures SplitN(w + " " + b, " ", maxsplit) == [w] + SplitN(b, " ", maxsplit - 1)
  {
    CharFreeBefore(w, ' ');
    SplitNGlued(w, " ", b, maxsplit);
  }

  /** A request string that starts with three words, each ended by a space or a
      carriage return, yields those words as method, target and version text. */
  lemma StartLineWords(m: string, e1: char, u: string, e2: char, v: string, tail: string)
    requires IsWord(m) && IsWord(u) && IsWord(v) && IsSep(e1) && IsSep(e2)
    requires |tail| >= 1 && IsSep(tail[0])
    ensures Construct(m + [e1] + u + [e2] + v + tail).httpMethod == Some(m)
    ensures Construct(m + [e1] + u + [e2] + v + tail).uri == Some(u)
    ensures Construct(m + [e1] + u + [e2] + v + tail).version ==
              if Contains(v, "1.1") then Version11 else DefaultVersion
  {
    var rest := tail[1..];
    assert m + [e1] + u + [e2] + v + tail == m + [e1] + u + [e2] + v + [tail[0]] + rest;
    PiecesOfWords(m, e1, u, e2, v, tail[0], rest);
  }

  /** The sample request at the bottom of the file, split after its start line. */
  const SampleStartLine: string := "GET / HTTP/1.1"
  const SampleRest: string := "\r" + "\nUser-Agent: curl/7.29.0\r\nHost: cedar.rlogin:13650\r\nAccept: */*\r\n\r\n"

  /** The sample request parses to `GET`, `/` and 1.1. */
  lemma SampleRequest()
    ensures var r := Construct(SampleStartLine + SampleRest);
            r.httpMethod == Some("GET") && r.uri == Some("/") && r.version == 1.1 && r.headers == []
  {
    SampleWords();
    StartLineWords("GET", ' ', "/", ' ', "HTTP/1.1", SampleRest);
  }

  lemma SampleWords()
    ensures IsWord("GET") && IsWord("/") && IsWord("HTTP/1.1")
    ensures Contains("HTTP/1.1", "1.1")
    ensures "GET" + [' '] + "/" + [' '] + "HTTP/1.1" == SampleStartLine
    ensures SampleRest[0] == '\r'
  {
    assert IsWord("GET");
    assert IsWord("/");
    assert IsWord("HTTP/1.1");
    assert OccursAt("HTTP/1.1", "1.1", 5);
    assert "GET" + [' '] + "/" + [' '] + "HTTP/1.1" == SampleStartLine;
    assert SampleRest[0] == '\r';
  }

  /** A two-word start line, its line break and one more word hold one space
      and one carriage return. */
  lemma TwoWordCounts(m: string, u: string, w: string)
    requires IsWord(m) && IsWord(u) && IsWord(w)
    ensures CountChar(m + " " + u + "\r\n" + w, ' ') == 1
    ensures CountChar(m + " " + u + "\r\n" + w, '\r') == 1
  {
    WordCounts(m);
    WordCounts(u);
    WordCounts(w);
    CountCharConcat(m, " ", ' ');
    CountCharConcat(m, " ", '\r');
    CountCharConcat(m + " ", u, ' ');
    CountCharConcat(m + " ", u, '\r');
    CountCharConcat(m + " " + u, "\r\n", ' ');
    CountCharConcat(m + " " + u, "\r\n", '\r');
    CountCharConcat(m + " " + u + "\r\n", w, ' ');
    CountCharConcat(m + " " + u + "\r\n", w, '\r');
    assert "\r\n"[1..] == "\n";
  }

  /** A word holds neither spaces nor carriage returns. */
  lemma WordCounts(w: string)
    requires IsWord(w)
    ensures CountChar(w, ' ') == 0 && CountChar(w, '\r') == 0
  {
    AvoidsCountsZero(w, ' ');
    AvoidsCountsZero(w, '\r');
  }

  /** A start line cut short by its line break, followed by at most one word and
      nothing else, has too few separators: nothing is parsed and the defaults stay. */
  lemma ShortStartLine(m: string, u: string, w: string)
    requires IsWord(m) && IsWord(u) && IsWord(w)
    ensures Construct(m + " " + u + "\r\n" + w) == LegacyRequest(m + " " + u + "\r\n" + w, None, None, DefaultVersion, [])
  {
    TwoWordCounts(m, u, w);
    SucceedsIff(m + " " + u + "\r\n" + w);
  }

  /** A two-word start line followed by more text is not short at all: its line
      break supplies the second separator, and the next line's first word becomes
      the version text. */
  lemma TwoWordsThenMore(m: string, u: string, h: string, tail: string)
    requires IsWord(m) && IsWord(u) && IsWord(h)
    requires |tail| >= 1 && IsSep(tail[0])
    ensures Construct(m + " " + u + "\r\n" + h + tail).httpMethod == Some(m)
    ensures Construct(m + " " + u + "\r\n" + h + tail).uri == Some(u)
    ensures Construct(m + " " + u + "\r\n" + h + tail).version ==
              if Contains("\n" + h, "1.1") then Version11 else DefaultVersion
  {
    var v := "\n" + h;
    forall k | 0 <= k < |v|
      ensures v[k] != ' ' && v[k] != '\r'
    {
      if k > 0 {
        assert v[k] == h[k - 1];
      }
    }
    assert m + " " + u + "\r\n" + h + tail == m + [' '] + u + ['\r'] + v + tail;
    StartLineWords(m, ' ', u, '\r', v, tail);
  }

  /** `"GET /\r\nHost: x"`: the start line lacks a version, yet method and target
      are set from it and the header's name is taken as the version text. */
  lemma HeaderAfterShortStartLine(text: string)
    requires text == "GET /\r\nHost: x"
    ensures Construct(text) == LegacyRequest(text, Some("GET"), Some("/"), DefaultVersion, [])
  {
    SampleWords();
    var h := "Host:";
    assert IsWord(h);
    assert text == "GET" + " " + "/" + "\r\n" + h + " x";
    forall j | 0 <= j <= |"\n" + h| - 3
      ensures !OccursAt("\n" + h, "1.1", j)
    {
      assert ("\n" + h)[j] != '1';
    }
    TwoWordsThenMore("GET", "/", h, " x");
  }
}

=== FILE: parse_examples.dfy ===
/** What the model of `HTTPRequest.parse` gives for concrete requests: a request
    with one header, one with a body, unlisted methods, missing start-line
    fields, two rejected versions, and a header line without `": "` that makes
    the parser spin. */
module ParseExamples {
  import opened Wrappers
  import opened PyStrings
  import opened HttpMessages

  /** A line free of carriage returns cannot run into the line break after it. */
  lemma CarriageFreeBefore(a: string)
    requires Avoids(a, '\r')
    ensures CleanBefore(a, CRLF)
  {
    forall j | 0 <= j < |a|
      ensures !OccursAt(a + CRLF, CRLF, j)
    {
      assert (a + CRLF)[j..j + 2][0] == a[j];
    }
  }

  /** A request assembled from lines, each free of carriage returns, with a space
      separated start line, is cut back into those lines and start fields. */
  lemma Assembled(fields: seq<string>, lines: seq<string>, text: string)
    requires |fields| >= 1 && forall k :: 0 <= k < |fields| ==> Avoids(fields[k], ' ')
    requires |lines| >= 1 && lines[0] == Join(fields, " ")
    requires forall k :: 0 <= k < |lines| ==> Avoids(lines[k], '\r')
    requires text == Join(lines, CRLF)
    ensures Lines(text) == lines
    ensures StartFields(text) == fields
    ensures HeaderLines(text) == lines[1..]
  {
    forall k | 0 <= k < |lines|
      ensures CleanBefore(lines[k], CRLF)
    {
      CarriageFreeBefore(lines[k]);
    }
    SplitJoin(lines, CRLF);
    forall k | 0 <= k < |fields|
      ensures CleanBefore(fields[k], " ")
    {
      CharFreeBefore(fields[k], ' ');
    }
    SplitJoin(fields, " ");
  }

  /** `Assembled` for a start line of three words. */
  lemma AssembledWords(a: string, b: string, c: string, lines: seq<string>, text: string)
    requires Avoids(a, ' ') && Avoids(b, ' ') && Avoids(c, ' ')
    requires |lines| >= 1 && lines[0] == Join([a, b, c], " ")
    requires forall k :: 0 <= k < |lines| ==> Avoids(lines[k], '\r')
    requires text == Join(lines, CRLF)
    ensures Lines(text) == lines
    ensures StartFields(text) == [a, b, c]
    ensures HeaderLines(text) == lines[1..]
  {
    var fields := [a, b, c];
    assert fields[0] == a && fields[1] == b && fields[2] == c;
    Assembled(fields, lines, text);
  }

  lemma Join3(a: string, b: string, c: string, sep: string)
    ensures Join([a, b, c], sep) == a + sep + b + sep + c
  {
    assert [a, b, c][1..] == [b, c];
    assert [b, c][1..] == [c];
    assert Join([b, c], sep) == b + sep + c;
    assert a + sep + (b + sep + c) == a + sep + b + sep + c;
  }

  /** Stripping leaves a text that has no surrounding whitespace unchanged. */
  lemma StripKeeps(w: string)
    requires Trimmed(w)
    ensures Strip(w) == w
  {
    StripPadded("", w, "");
    assert "" + w + "" == w;
  }

  /** The version field `"HTTP/" + v` is read as `v`. */
  lemma VersionAfterPrefix(v: string)
    requires Trimmed("HTTP/" + v) && !Contains(v, "HTTP/")
    ensures VersionString("HTTP/" + v) == v
  {
    var f := "HTTP/" + v;
    StripKeeps(f);
    assert f[..5] == "HTTP/";
    FindFirst(f, "HTTP/", 0);
    assert f[5..] == v;
    ReplaceAbsent(v, "HTTP/", "");
  }

  /** The start line `m t HTTP/1.1` with an allowed method and target. */
  lemma AcceptedStart(m: string, t: string, lines: seq<string>, text: string, toFloat: string -> Option<real>)
    requires m in {"GET", "POST"} && t in {"/", "/ifttt"}
    requires |lines| >= 1 && lines[0] == Join([m, t, "HTTP/1.1"], " ")
    requires forall k :: 0 <= k < |lines| ==> Avoids(lines[k], '\r')
    requires text == Join(lines, CRLF)
    requires toFloat("1.1") == Some(1.1)
    ensures StartLineAccepted(text, toFloat)
    ensures StartFields(text) == [m, t, "HTTP/1.1"]
    ensures HeaderLines(text) == lines[1..]
  {
    AllowedWords(m, t);
    AssembledWords(m, t, "HTTP/1.1", lines, text);
    AcceptedFields(text, m, t, toFloat);
  }

  /** Start fields `m t HTTP/1.1` with an allowed method and target pass every
      start-line check. */
  lemma AcceptedFields(text: string, m: string, t: string, toFloat: string -> Option<real>)
    requires m in {"GET", "POST"} && t in {"/", "/ifttt"}
    requires StartFields(text) == [m, t, "HTTP/1.1"]
    requires toFloat("1.1") == Some(1.1)
    ensures StartLineAccepted(text, toFloat)
  {
    AllowedWords(m, t);
    VersionOneOne();
    assert ValidateMethod(Strip(StartFields(text)[0])) == 0;
    assert ValidateTarget(Strip(StartFields(text)[1])) == 0;
    assert ValidateVersion(VersionString(StartFields(text)[2]), toFloat) == 0;
  }

  /** The allowed methods and targets are single words that stripping keeps. */
  lemma AllowedWords(m: string, t: string)
    requires m in {"GET", "POST"} && t in {"/", "/ifttt"}
    ensures Avoids(m, ' ') && Avoids(t, ' ') && Avoids("HTTP/1.1", ' ')
    ensures Strip(m) == m && Strip(t) == t
  {
    if m == "GET" {
      StripKeeps("GET");
    } else {
      StripKeeps("POST");
    }
    if t == "/" {
      StripKeeps("/");
    } else {
      StripKeeps("/ifttt");
    }
  }

  lemma VersionOneOne()
    ensures VersionString("HTTP/1.1") == "1.1"
  {
    assert "HTTP/1.1" == "HTTP/" + "1.1";
    VersionAfterPrefix("1.1");
  }

  lemma HostLine()
    ensures IsHeaderLine("Host: x") && Key("Host: x") == "Host" && Value("Host: x") == "x"
  {
    FirstCharAbsent("Host", FieldSep);
    FirstCharAbsent("x", FieldSep);
    assert "Host: x" == "Host" + FieldSep + "x" + "";
    HeaderLineParts("Host", "x", "");
    StripKeeps("Host");
    StripKeeps("x");
  }

  lemma HostRequestText()
    ensures Join(["GET / HTTP/1.1", "Host: x", "", ""], CRLF) == "GET / HTTP/1.1\r\nHost: x\r\n\r\n"
    ensures Join(["GET", "/", "HTTP/1.1"], " ") == "GET / HTTP/1.1"
  {
  }

  /** `GET / HTTP/1.1`, one header and a blank line: success, the header stored,
      and no body. */
  lemma HostHeaderRequest(text: string, toFloat: string -> Option<real>)
    requires text == "GET / HTTP/1.1\r\nHost: x\r\n\r\n"
    requires toFloat("1.1") == Some(1.1)
    ensures var r := Parse(text, toFloat);
            && r.outcome == Returned(0)
            && r.request.httpMethod == Some("GET")
            && r.request.target == Some("/")
            && r.request.version == Some(VersionNumber(1.1))
            && r.request.headers == map["Host" := "x"]
            && r.request.body == None
  {
    var lines := ["GET / HTTP/1.1", "Host: x", "", ""];
    HostRequestText();
    AcceptedStart("GET", "/", lines, text, toFloat);
    AfterStartLine(text, toFloat);
    HostScan(lines[1..]);
    AllowedWords("GET", "/");
  }

  /** The header lines of the request above: one header, then the blank line. */
  lemma HostScan(rest: seq<string>)
    requires rest == ["Host: x", "", ""]
    ensures HeaderStop(rest) == 1 && rest[1] == ""
    ensures HeadersOf(rest[..1]) == map["Host" := "x"]
    ensures Concat(rest[2..]) == ""
  {
    HostLine();
    HeaderLineHasDelimiter("");
    assert HeaderStop(rest) == 1;
    assert rest[..1] == ["Host: x"];
    assert Entries(["Host: x"]) == [("Host", "x")];
    assert Store([("Host", "x")]) == map["Host" := "x"];
    assert rest[2..] == [""];
    assert Concat([""]) == "";
  }

  lemma BodyRequestText()
    ensures Join(["POST /ifttt HTTP/1.1", "", "hello"], CRLF) == "POST /ifttt HTTP/1.1\r\n\r\nhello"
    ensures Join(["POST", "/ifttt", "HTTP/1.1"], " ") == "POST /ifttt HTTP/1.1"
  {
  }

  /** `POST /ifttt HTTP/1.1`, a blank line and `hello`: success with that body. */
  lemma BodyRequest(text: string, toFloat: string -> Option<real>)
    requires text == "POST /ifttt HTTP/1.1\r\n\r\nhello"
    requires toFloat("1.1") == Some(1.1)
    ensures var r := Parse(text, toFloat);
            && r.outcome == Returned(0)
            && r.request.headers == map[]
            && r.request.body == Some("hello")
  {
    var lines := ["POST /ifttt HTTP/1.1", "", "hello"];
    BodyRequestText();
    AcceptedStart("POST", "/ifttt", lines, text, toFloat);
    AfterStartLine(text, toFloat);
    BodyScan(lines[1..]);
  }

  /** The header lines of the request above: the blank line, then the body. */
  lemma BodyScan(rest: seq<string>)
    requires rest == ["", "hello"]
    ensures HeaderStop(rest) == 0 && rest[0] == ""
    ensures HeadersOf(rest[..0]) == map[]
    ensures Concat(rest[1..]) == "hello"
  {
    HeaderLineHasDelimiter("");
    assert HeaderStop(rest) == 0;
    assert rest[..0] == [];
    assert rest[1..] == ["hello"];
    assert Concat(["hello"]) == "hello";
  }

  /** Any request starting `PUT ` is turned away as `BAD_METHOD`, whatever
      follows; the target is never looked at. */
  lemma UnlistedMethod(text: string, rest: string, toFloat: string -> Option<real>)
    requires text == "PUT " + rest
    ensures Parse(text, toFloat).outcome == Returned(BadMethodCode)
    ensures Parse(text, toFloat).request.target == None
  {
    forall j | 0 <= j < 4
      ensures !OccursAt(text, CRLF, j)
    {
      if j + 2 <= |text| {
        assert text[j..j + 2][0] == text[j];
      }
    }
    SplitFirstPrefix("PUT ", rest, CRLF);
    var first := Lines(text)[0];
    assert first == "PUT" + " " + first[4..];
    CharFreeBefore("PUT", ' ');
    SplitGlued("PUT", " ", first[4..]);
    StripKeeps("PUT");
  }

  /** A version field whose text is not 1.1 once `"HTTP/"` is removed. */
  lemma OtherVersion(v: string, text: string, toFloat: string -> Option<real>)
    requires Avoids(v, ' ') && Avoids(v, '\r') && Trimmed("HTTP/" + v) && !Contains(v, "HTTP/")
    requires text == Join(["GET / HTTP/" + v, "", ""], CRLF)
    requires toFloat(v) != Some(1.1)
    ensures Parse(text, toFloat).outcome == Returned(BadVersionCode)
  {
    var lines := ["GET / HTTP/" + v, "", ""];
    Join3("GET", "/", "HTTP/" + v, " ");
    assert "GET / HTTP/" == "GET" + " " + "/" + " " + "HTTP/";
    assert "GET" + " " + "/" + " " + ("HTTP/" + v) == "GET / HTTP/" + v;
    AssembledWords("GET", "/", "HTTP/" + v, lines, text);
    StripKeeps("GET");
    StripKeeps("/");
    VersionAfterPrefix(v);
  }

  /** `HTTP/2.0` parses to a number other than 1.1: `BAD_VERSION`. */
  lemma VersionTwo(text: string, toFloat: string -> Option<real>)
    requires text == "GET / HTTP/2.0\r\n\r\n"
    requires toFloat("2.0") == Some(2.0)
    ensures Parse(text, toFloat).outcome == Returned(BadVersionCode)
  {
    Join3("GET / HTTP/" + "2.0", "", "", CRLF);
    assert text == "GET / HTTP/" + "2.0" + CRLF + "" + CRLF + "";
    OtherVersion("2.0", text, toFloat);
  }

  /** `HTTP/abc` does not parse as a number: also `BAD_VERSION`. */
  lemma VersionNotANumber(text: string, toFloat: string -> Option<real>)
    requires text == "GET / HTTP/abc\r\n\r\n"
    requires toFloat("abc") == None
    ensures Parse(text, toFloat).outcome == Returned(BadVersionCode)
  {
    Join3("GET / HTTP/" + "abc", "", "", CRLF);
    assert text == "GET / HTTP/" + "abc" + CRLF + "" + CRLF + "";
    OtherVersion("abc", text, toFloat);
  }

  lemma StuckRequestText()
    ensures Join(["GET / HTTP/1.1", "bad", "", ""], CRLF) == "GET / HTTP/1.1\r\nbad\r\n\r\n"
    ensures Join(["GET", "/", "HTTP/1.1"], " ") == "GET / HTTP/1.1"
  {
  }

  /** A header line without `": "` is not skipped: the loop never moves past it. */
  lemma LineWithoutDelimiter(text: string, toFloat: string -> Option<real>)
    requires text == "GET / HTTP/1.1\r\nbad\r\n\r\n"
    requires toFloat("1.1") == Some(1.1)
    ensures Parse(text, toFloat).outcome == Diverges
  {
    var lines := ["GET / HTTP/1.1", "bad", "", ""];
    StuckRequestText();
    AcceptedStart("GET", "/", lines, text, toFloat);
    AfterStartLine(text, toFloat);
    StuckFirst(lines[1..]);
  }

  lemma StuckFirst(rest: seq<string>)
    requires rest == ["bad", "", ""]
    ensures HeaderStop(rest) == 0 && rest[0] != "" && |rest| > 0
  {
    FirstCharAbsent("bad", FieldSep);
    HeaderLineHasDelimiter("bad");
  }

  /** A request that is a start line alone, cut into the given fields. */
  lemma StartLineOnly(fields: seq<string>, text: string)
    requires |fields| >= 1 && forall k :: 0 <= k < |fields| ==> Avoids(fields[k], ' ')
    requires text == Join(fields, " ") && Avoids(text, '\r')
    ensures StartFields(text) == fields
  {
    FirstCharAbsent(text, CRLF);
    SplitAbsent(text, CRLF);
    forall k | 0 <= k < |fields|
      ensures CleanBefore(fields[k], " ")
    {
      CharFreeBefore(fields[k], ' ');
    }
    SplitJoin(fields, " ");
  }

  /** `"PUT"`: a single field, yet the method check comes first, so the missing
      target is never indexed and the result is `BAD_METHOD`. */
  lemma LoneBadMethod(text: string, toFloat: string -> Option<real>)
    requires text == "PUT"
    ensures Parse(text, toFloat).outcome == Returned(BadMethodCode)
  {
    assert Avoids(text, ' ') && Avoids(text, '\r');
    StartLineOnly([text], text);
    StripKeeps(text);
    StartLineStages(text, toFloat);
  }

  /** `"GET"`: an accepted method with no target raises `IndexError`. */
  lemma MissingTarget(text: string, toFloat: string -> Option<real>)
    requires text == "GET"
    ensures Parse(text, toFloat).outcome == Raises(IndexError)
    ensures Parse(text, toFloat).request.httpMethod == Some("GET")
  {
    assert Avoids(text, ' ') && Avoids(text, '\r');
    StartLineOnly([text], text);
    StripKeeps(text);
    StartLineStages(text, toFloat);
  }

  /** `"GET /x"`: two fields, but the target check comes before the version is
      indexed, so the result is `BAD_TARGET`. */
  lemma BadTargetBeforeMissingVersion(text: string, toFloat: string -> Option<real>)
    requires text == "GET /x"
    ensures Parse(text, toFloat).outcome == Returned(BadTargetCode)
  {
    var m, t := "GET", "/x";
    assert Avoids(m, ' ') && Avoids(t, ' ') && Avoids(text, '\r');
    assert [m, t][1..] == [t];
    assert text == Join([m, t], " ");
    StartLineOnly([m, t], text);
    StripKeeps(m);
    StripKeeps(t);
    StartLineStages(text, toFloat);
  }

  /** `"GET /"`: an accepted method and target with no version raises `IndexError`. */
  lemma MissingVersion(text: string, toFloat: string -> Option<real>)
    requires text == "GET /"
    ensures Parse(text, toFloat).outcome == Raises(IndexError)
    ensures Parse(text, toFloat).request.target == Some("/")
  {
    var m, t := "GET", "/";
    assert Avoids(m, ' ') && Avoids(t, ' ') && Avoids(text, '\r');
    assert [m, t][1..] == [t];
    assert text == Join([m, t], " ");
    StartLineOnly([m, t], text);
    StripKeeps(m);
    StripKeeps(t);
    StartLineStages(text, toFloat);
    EarlyExitState(text, toFloat);
  }
}

=== FILE: pystrings.dfy ===
/** Python `str` operations used by the request parsers, with Python's exact
    semantics: `sep in s`, `s.split(sep)`, `s.split(sep, maxsplit)`,
    `sep.join(pieces)`, `s.replace(pat, repl)`, `s.strip()` and `"%d" % n`.
    Every separator and pattern the parsers use is a non-empty literal, so the
    `ValueError` Python raises for an empty separator is excluded by `requires`. */
module PyStrings {
  import opened Wrappers

  /** `sep` occurs in `s` starting at position `i`. */
  predicate OccursAt(s: string, sep: string, i: int)
  {
    0 <= i && i + |sep| <= |s| && s[i..i + |sep|] == sep
  }

  /** The character `c` appears nowhere in `s`. */
  predicate Avoids(s: string, c: char)
  {
    forall k :: 0 <= k < |s| ==> s[k] != c
  }

  /** Python's `sep in s`. */
  predicate Contains(s: string, sep: string)
  {
    exists i :: 0 <= i <= |s| && OccursAt(s, sep, i)
  }

  /** Dropping the first character shifts every later occurrence left by one. */
  lemma OccursShift(s: string, sep: string)
    requires |s| > 0
    ensures forall i :: 1 <= i ==> (OccursAt(s, sep, i) <==> OccursAt(s[1..], sep, i - 1))
  {
    forall i | 1 <= i
      ensures OccursAt(s, sep, i) <==> OccursAt(s[1..], sep, i - 1)
    {
      if i + |sep| <= |s| {
        assert s[1..][i - 1..i - 1 + |sep|] == s[i..i + |sep|];
      }
    }
  }

  /** The position of the leftmost occurrence of `sep` in `s` (Python's `s.find(sep)`,
      with `None` for -1). */
  function Find(s: string, sep: string): (r: Option<nat>)
    ensures r.Some? ==> r.value + |sep| <= |s|
    decreases |s|
  {
    if |s| < |sep| then None
    else if s[..|sep|] == sep then Some(0)
    else
      match Find(s[1..], sep)
      case None => None
      case Some(k) => Some(k + 1)
  }

  /** `Find` reports exactly the leftmost occurrence, and nothing when there is none. */
  lemma {:induction false} FindSpec(s: string, sep: string)
    ensures Find(s, sep).Some? ==> OccursAt(s, sep, Find(s, sep).value)
    ensures Find(s, sep).Some? ==> forall j :: 0 <= j < Find(s, sep).value ==> !OccursAt(s, sep, j)
    ensures Find(s, sep).None? <==> !Contains(s, sep)
    decreases |s|
  {
    if |s| >= |sep| {
      if s[..|sep|] == sep {
        assert OccursAt(s, sep, 0);
      } else {
        FindSpec(s[1..], sep);
        match Find(s[1..], sep)
        case None => FindSkipNone(s, sep);
        case Some(k) => FindSkipSome(s, sep, k);
      }
    }
  }

  /** No occurrence after the first character and none at it: none at all. */
  lemma FindSkipNone(s: string, sep: string)
    requires |s| >= |sep| && s[..|sep|] != sep
    requires !Contains(s[1..], sep)
    ensures !Contains(s, sep)
  {
    OccursShift(s, sep);
    forall i | 1 <= i <= |s|
      ensures !OccursAt(s, sep, i)
    {
      assert 0 <= i - 1 <= |s[1..]|;
    }
    assert s[0..|sep|] == s[..|sep|];
  }

  /** The leftmost occurrence after the first character, when there is none at it,
      is the leftmost one. */
  lemma FindSkipSome(s: string, sep: string, k: nat)
    requires |s| >= |sep| && s[..|sep|] != sep
    requires OccursAt(s[1..], sep, k)
    requires forall j :: 0 <= j < k ==> !OccursAt(s[1..], sep, j)
    ensures OccursAt(s, sep, k + 1)
    ensures forall j :: 0 <= j < k + 1 ==> !OccursAt(s, sep, j)
  {
    OccursShift(s, sep);
    forall j | 1 <= j < k + 1
      ensures !OccursAt(s, sep, j)
    {
      assert !OccursAt(s[1..], sep, j - 1);
    }
  }

  /** Text around an occurrence of `sep` is what comes before, `sep`, and what follows. */
  lemma AroundOccurrence(s: string, sep: string, i: int)
    requires OccursAt(s, sep, i)
    ensures s == s[..i] + sep + s[i + |sep|..]
  {
    assert s == s[..i] + s[i..i + |sep|] + s[i + |sep|..];
  }

  /** Text around the occurrence `Find` reports. */
  lemma AroundFound(s: string, sep: string, i: nat)
    requires Find(s, sep) == Some(i)
    ensures s == s[..i] + sep + s[i + |sep|..]
  {
    FindSpec(s, sep);
    AroundOccurrence(s, sep, i);
  }

  /** Any occurrence with no earlier occurrence is the one `Find` reports. */
  lemma FindFirst(s: string, sep: string, i: nat)
    requires OccursAt(s, sep, i)
    requires forall j :: 0 <= j < i ==> !OccursAt(s, sep, j)
    ensures Find(s, sep) == Some(i)
  {
    FindSpec(s, sep);
  }

  /** The text before the leftmost occurrence of a separator does not contain it. */
  lemma BeforeFirstHasNoSep(s: string, sep: string, i: nat)
    requires |sep| > 0
    requires OccursAt(s, sep, i)
    requires forall j :: 0 <= j < i ==> !OccursAt(s, sep, j)
    ensures !Contains(s[..i], sep)
  {
    forall j | OccursAt(s[..i], sep, j)
      ensures false
    {
      assert s[..i][j..j + |sep|] == s[j..j + |sep|];
      assert OccursAt(s, sep, j);
    }
  }

  /** Python's `s.split(sep)` for a non-empty `sep`: cut at every occurrence found
      scanning left to right, keeping empty pieces. */
  function Split(s: string, sep: string): (r: seq<string>)
    requires |sep| > 0
    ensures |r| >= 1
    decreases |s|
  {
    match Find(s, sep)
    case None => [s]
    case Some(i) => [s[..i]] + Split(s[i + |sep|..], sep)
  }

  /** A split has a second piece exactly when the separator occurs, and no piece
      contains the separator. */
  lemma {:induction false} SplitSpec(s: string, sep: string)
    requires |sep| > 0
    ensures |Split(s, sep)| >= 2 <==> Contains(s, sep)
    ensures forall k :: 0 <= k < |Split(s, sep)| ==> !Contains(Split(s, sep)[k], sep)
    decreases |s|
  {
    FindSpec(s, sep);
    match Find(s, sep)
    case None =>
    case Some(i) =>
      BeforeFirstHasNoSep(s, sep, i);
      var rest := s[i + |sep|..];
      SplitSpec(rest, sep);
      assert Split(s, sep) == [s[..i]] + Split(rest, sep);
  }

  /** Python's `sep.join(pieces)`. */
  function Join(pieces: seq<string>, sep: string): string
  {
    if |pieces| == 0 then ""
    else if |pieces| == 1 then pieces[0]
    else pieces[0] + sep + Join(pieces[1..], sep)
  }

  /** Python's `"".join(pieces)`: the pieces glued with nothing between them. */
  function Concat(pieces: seq<string>): string
  {
    if |pieces| == 0 then "" else pieces[0] + Concat(pieces[1..])
  }

  /** Splitting at the leftmost occurrence: the first piece is everything before it,
      the rest is the split of everything after it. */
  lemma SplitAt(s: string, sep: string, i: nat)
    requires |sep| > 0
    requires OccursAt(s, sep, i)
    requires forall j :: 0 <= j < i ==> !OccursAt(s, sep, j)
    ensures Split(s, sep) == [s[..i]] + Split(s[i + |sep|..], sep)
  {
    FindFirst(s, sep, i);
  }

  /** No occurrence of `sep` starts inside `a`, not even one that runs on into a
      `sep` written right after it. */
  predicate CleanBefore(a: string, sep: string)
  {
    forall j :: 0 <= j < |a| ==> !OccursAt(a + sep, sep, j)
  }

  /** A text clean before `sep` does not contain it. */
  lemma CleanHasNoSep(a: string, sep: string)
    requires |sep| > 0 && CleanBefore(a, sep)
    ensures !Contains(a, sep)
  {
    forall i | 0 <= i <= |a|
      ensures !OccursAt(a, sep, i)
    {
      if i + |sep| <= |a| {
        assert (a + sep)[i..i + |sep|] == a[i..i + |sep|];
        assert !OccursAt(a + sep, sep, i);
      }
    }
  }

  /** When the first occurrence of `sep` in `a + sep + b` is the one after `a`,
      splitting yields `a` followed by the pieces of `b`. */
  lemma SplitGlued(a: string, sep: string, b: string)
    requires |sep| > 0 && CleanBefore(a, sep)
    ensures Split(a + sep + b, sep) == [a] + Split(b, sep)
  {
    var s := a + sep + b;
    forall j | 0 <= j < |a|
      ensures !OccursAt(s, sep, j)
    {
      assert !OccursAt(a + sep, sep, j);
      assert s[j..j + |sep|] == (a + sep)[j..j + |sep|];
    }
    assert s[|a|..|a| + |sep|] == sep;
    SplitAt(s, sep, |a|);
    assert s[..|a|] == a;
    assert s[|a| + |sep|..] == b;
  }

  /** A text in which the first character of `sep` never appears does not contain
      `sep`. */
  lemma FirstCharAbsent(s: string, sep: string)
    requires |sep| > 0
    requires Avoids(s, sep[0])
    ensures !Contains(s, sep)
  {
    forall i | 0 <= i <= |s|
      ensures !OccursAt(s, sep, i)
    {
      if i + |sep| <= |s| {
        assert s[i..i + |sep|][0] == s[i];
      }
    }
  }

  /** A text without the separator splits into itself alone. */
  lemma SplitAbsent(s: string, sep: string)
    requires |sep| > 0 && !Contains(s, sep)
    ensures Split(s, sep) == [s]
  {
    FindSpec(s, sep);
  }

  /** Pieces none of which runs into the separator split back out of their join. */
  lemma {:induction false} SplitJoin(pieces: seq<string>, sep: string)
    requires |sep| > 0 && |pieces| >= 1
    requires forall k :: 0 <= k < |pieces| ==> CleanBefore(pieces[k], sep)
    ensures Split(Join(pieces, sep), sep) == pieces
    decreases |pieces|
  {
    if |pieces| == 1 {
      CleanHasNoSep(pieces[0], sep);
      SplitAbsent(pieces[0], sep);
    } else {
      var tail := pieces[1..];
      SplitJoin(tail, sep);
      SplitGlued(pieces[0], sep, Join(tail, sep));
      assert [pieces[0]] + tail == pieces;
    }
  }

  /** When no occurrence of `sep` starts inside `a`, the first piece of splitting
      `a + b` begins with `a`, whatever `b` is. */
  lemma SplitFirstPrefix(a: string, b: string, sep: string)
    requires |sep| > 0
    requires forall j :: 0 <= j < |a| ==> !OccursAt(a + b, sep, j)
    ensures |a| <= |Split(a + b, sep)[0]| && Split(a + b, sep)[0][..|a|] == a
  {
    var s := a + b;
    FindSpec(s, sep);
    if Find(s, sep).Some? {
      var i := Find(s, sep).value;
      assert OccursAt(s, sep, i);
      assert i >= |a|;
      assert Split(s, sep)[0] == s[..i];
    }
  }

  lemma JoinCons(head: string, tail: seq<string>, sep: string)
    requires |tail| >= 1
    ensures Join([head] + tail, sep) == head + sep + Join(tail, sep)
  {
    assert ([head] + tail)[1..] == tail;
  }

  /** Joining the pieces of a split with the same separator gives back the text. */
  lemma {:induction false} JoinSplit(s: string, sep: string)
    requires |sep| > 0
    ensures Join(Split(s, sep), sep) == s
    decreases |s|
  {
    match Find(s, sep)
    case None =>
    case Some(i) =>
      JoinSplit(s[i + |sep|..], sep);
      JoinSplitStep(s, sep, i);
  }

  /** One cut of `JoinSplit`: if the remainder joins back, so does the whole. */
  lemma JoinSplitStep(s: string, sep: string, i: nat)
    requires |sep| > 0 && Find(s, sep) == Some(i)
    requires Join(Split(s[i + |sep|..], sep), sep) == s[i + |sep|..]
    ensures Join(Split(s, sep), sep) == s
  {
    var parts := Split(s[i + |sep|..], sep);
    SplitCut(s, sep, i);
    JoinCons(s[..i], parts, sep);
    AroundFound(s, sep, i);
  }

  /** A split starts with the text before the leftmost separator. */
  lemma SplitCut(s: string, sep: string, i: nat)
    requires |sep| > 0 && Find(s, sep) == Some(i)
    ensures Split(s, sep) == [s[..i]] + Split(s[i + |sep|..], sep)
  {
  }

  function Min(a: int, b: int): int
  {
    if a <= b then a else b
  }

  /** Python's `s.split(sep, maxsplit)`: at most `maxsplit` cuts, the unsplit
      remainder as the last piece. */
  function SplitN(s: string, sep: string, maxsplit: nat): (r: seq<string>)
    requires |sep| > 0
    ensures 1 <= |r| <= maxsplit + 1
    decreases maxsplit
  {
    if maxsplit == 0 then [s]
    else
      match Find(s, sep)
      case None => [s]
      case Some(i) => [s[..i]] + SplitN(s[i + |sep|..], sep, maxsplit - 1)
  }

  /** A bounded split has `min(maxsplit + 1, |Split(s, sep)|)` pieces and agrees
      with the full split on every piece but the last. */
  lemma {:induction false} SplitNIsBoundedSplit(s: string, sep: string, maxsplit: nat)
    requires |sep| > 0
    ensures |SplitN(s, sep, maxsplit)| == Min(maxsplit + 1, |Split(s, sep)|)
    ensures forall k :: 0 <= k < |SplitN(s, sep, maxsplit)| - 1 ==>
              SplitN(s, sep, maxsplit)[k] == Split(s, sep)[k]
    decreases maxsplit
  {
    if maxsplit > 0 {
      match Find(s, sep)
      case None =>
      case Some(i) =>
        var rest := s[i + |sep|..];
        SplitNIsBoundedSplit(rest, sep, maxsplit - 1);
        var bounded := SplitN(rest, sep, maxsplit - 1);
        var full := Split(rest, sep);
        assert SplitN(s, sep, maxsplit) == [s[..i]] + bounded;
        assert Split(s, sep) == [s[..i]] + full;
        forall k | 1 <= k < |bounded|
          ensures ([s[..i]] + bounded)[k] == ([s[..i]] + full)[k]
        {
          assert bounded[k - 1] == full[k - 1];
        }
    }
  }

  /** The bounded counterpart of `SplitGlued`: one cut is spent on the separator
      after `a`. */
  lemma SplitNGlued(a: string, sep: string, b: string, maxsplit: nat)
    requires |sep| > 0 && maxsplit >= 1 && CleanBefore(a, sep)
    ensures SplitN(a + sep + b, sep, maxsplit) == [a] + SplitN(b, sep, maxsplit - 1)
  {
    var s := a + sep + b;
    forall j | 0 <= j < |a|
      ensures !OccursAt(s, sep, j)
    {
      assert !OccursAt(a + sep, sep, j);
      assert s[j..j + |sep|] == (a + sep)[j..j + |sep|];
    }
    assert s[|a|..|a| + |sep|] == sep;
    FindFirst(s, sep, |a|);
    assert s[..|a|] == a;
    assert s[|a| + |sep|..] == b;
  }

  /** A text free of the character `c` cannot run into a `c` written after it. */
  lemma CharFreeBefore(a: string, c: char)
    requires Avoids(a, c)
    ensures CleanBefore(a, [c])
  {
    forall j | 0 <= j < |a|
      ensures !OccursAt(a + [c], [c], j)
    {
      OccursChar(a + [c], c, j);
    }
  }

  /** A bounded split still joins back to the text. */
  lemma {:induction false} JoinSplitN(s: string, sep: string, maxsplit: nat)
    requires |sep| > 0
    ensures Join(SplitN(s, sep, maxsplit), sep) == s
    decreases maxsplit
  {
    if maxsplit > 0 {
      match Find(s, sep)
      case None =>
      case Some(i) =>
        JoinSplitN(s[i + |sep|..], sep, maxsplit - 1);
        JoinSplitNStep(s, sep, maxsplit, i);
    }
  }

  /** One cut of `JoinSplitN`: if the remainder joins back, so does the whole. */
  lemma JoinSplitNStep(s: string, sep: string, maxsplit: nat, i: nat)
    requires |sep| > 0 && maxsplit > 0 && Find(s, sep) == Some(i)
    requires Join(SplitN(s[i + |sep|..], sep, maxsplit - 1), sep) == s[i + |sep|..]
    ensures Join(SplitN(s, sep, maxsplit), sep) == s
  {
    var rest := s[i + |sep|..];
    var parts := SplitN(rest, sep, maxsplit - 1);
    SplitNCut(s, sep, maxsplit, i);
    JoinCons(s[..i], parts, sep);
    AroundFound(s, sep, i);
  }

  /** A bounded split with cuts left starts with the text before the leftmost
      separator. */
  lemma SplitNCut(s: string, sep: string, maxsplit: nat, i: nat)
    requires |sep| > 0 && maxsplit > 0 && Find(s, sep) == Some(i)
    ensures SplitN(s, sep, maxsplit) == [s[..i]] + SplitN(s[i + |sep|..], sep, maxsplit - 1)
  {
  }

  /** Python's `s.replace(pat, repl)`: every non-overlapping occurrence of `pat`,
      found scanning left to right, is replaced. */
  function ReplaceAll(s: string, pat: string, repl: string): string
    requires |pat| > 0
    decreases |s|
  {
    match Find(s, pat)
    case None => s
    case Some(i) => s[..i] + repl + ReplaceAll(s[i + |pat|..], pat, repl)
  }

  /** Text without the pattern is left as it is. */
  lemma ReplaceAbsent(s: string, pat: string, repl: string)
    requires |pat| > 0 && !Contains(s, pat)
    ensures ReplaceAll(s, pat, repl) == s
  {
    FindSpec(s, pat);
  }

  /** Deleting a pattern leaves text without it as it is, and shortens text that
      holds it by at least one copy of the pattern. */
  lemma {:induction false} RemoveShortens(s: string, pat: string)
    requires |pat| > 0
    ensures !Contains(s, pat) ==> ReplaceAll(s, pat, "") == s
    ensures Contains(s, pat) ==> |ReplaceAll(s, pat, "")| <= |s| - |pat|
    decreases |s|
  {
    FindSpec(s, pat);
    match Find(s, pat)
    case None =>
    case Some(i) =>
      var rest := s[i + |pat|..];
      RemoveShortens(rest, pat);
      if Contains(rest, pat) {
      } else {
        assert |ReplaceAll(rest, pat, "")| == |rest|;
      }
  }

  /** Replacing is splitting on the pattern and joining with the replacement. */
  lemma {:induction false} ReplaceAllIsJoinSplit(s: string, pat: string, repl: string)
    requires |pat| > 0
    ensures ReplaceAll(s, pat, repl) == Join(Split(s, pat), repl)
    decreases |s|
  {
    match Find(s, pat)
    case None =>
    case Some(i) =>
      var rest := s[i + |pat|..];
      ReplaceAllIsJoinSplit(rest, pat, repl);
      assert Split(s, pat) == [s[..i]] + Split(rest, pat);
  }

  /** Removing a pattern once does not remove it for good: deleting the inner
      `"HTTP/"` of `"HTHTTP/TP/1.1"` leaves a fresh `"HTTP/"` behind. */
  lemma ReplaceCanRecreatePattern(s: string)
    requires s == "HTHTTP/TP/1.1"
    ensures ReplaceAll(s, "HTTP/", "") == "HTTP/1.1"
    ensures Contains(ReplaceAll(s, "HTTP/", ""), "HTTP/")
  {
    var pat := "HTTP/";
    assert s[2..7] == pat;
    assert s[0..5][2] != pat[2];
    assert s[1..6][0] != pat[0];
    FindFirst(s, pat, 2);
    var rest := s[7..];
    assert rest == "TP/1.1";
    assert Avoids(rest, pat[0]);
    FirstCharAbsent(rest, pat);
    ReplaceAbsent(rest, pat, "");
    assert ReplaceAll(s, pat, "") == s[..2] + "" + rest;
    assert s[..2] == "HT";
    LiteralGlue();
    assert OccursAt("HTTP/1.1", pat, 0);
  }

  lemma LiteralGlue()
    ensures "HT" + "" + "TP/1.1" == "HTTP/1.1"
  {
  }

  // ---------------------------------------------------------------------------
  // Character counts (used to characterise single-character splits)

  function CountChar(s: string, c: char): nat
  {
    if |s| == 0 then 0 else (if s[0] == c then 1 else 0) + CountChar(s[1..], c)
  }

  lemma {:induction false} CountCharConcat(a: string, b: string, c: char)
    ensures CountChar(a + b, c) == CountChar(a, c) + CountChar(b, c)
    decreases |a|
  {
    if |a| > 0 {
      assert (a + b)[1..] == a[1..] + b;
      CountCharConcat(a[1..], b, c);
    } else {
      assert a + b == b;
    }
  }

  /** A one-character separator occurs exactly where that character stands. */
  lemma OccursChar(s: string, c: char, i: int)
    ensures OccursAt(s, [c], i) <==> 0 <= i < |s| && s[i] == c
  {
    if 0 <= i < |s| {
      assert s[i..i + 1] == [s[i]];
    }
  }

  lemma {:induction false} NoCharCountsZero(s: string, c: char)
    requires !Contains(s, [c])
    ensures CountChar(s, c) == 0
    decreases |s|
  {
    if |s| > 0 {
      OccursChar(s, c, 0);
      forall j | OccursAt(s[1..], [c], j) ensures false {
        OccursChar(s[1..], c, j);
        OccursChar(s, c, j + 1);
      }
      NoCharCountsZero(s[1..], c);
    }
  }

  /** A text that avoids a character holds no copy of it. */
  lemma AvoidsCountsZero(s: string, c: char)
    requires Avoids(s, c)
    ensures CountChar(s, c) == 0
  {
    forall i | 0 <= i <= |s| && OccursAt(s, [c], i)
      ensures false
    {
      OccursChar(s, c, i);
    }
    NoCharCountsZero(s, c);
  }

  /** Splitting on one character yields one more piece than there are copies of it. */
  lemma {:induction false} SplitCharCount(s: string, c: char)
    ensures |Split(s, [c])| == CountChar(s, c) + 1
    decreases |s|
  {
    FindSpec(s, [c]);
    match Find(s, [c])
    case None =>
      NoCharCountsZero(s, c);
    case Some(i) =>
      var rest := s[i + 1..];
      OccursChar(s, c, i);
      BeforeFirstHasNoSep(s, [c], i);
      NoCharCountsZero(s[..i], c);
      SplitCharCount(rest, c);
      assert s == s[..i] + [c] + rest;
      CountCharConcat(s[..i] + [c], rest, c);
      CountCharConcat(s[..i], [c], c);
  }

  /** Replacing one character by another maps the text position by position. */
  lemma {:induction false} ReplaceCharPointwise(s: string, a: char, b: char)
    ensures |ReplaceAll(s, [a], [b])| == |s|
    ensures forall k :: 0 <= k < |s| ==>
              ReplaceAll(s, [a], [b])[k] == (if s[k] == a then b else s[k])
    decreases |s|
  {
    FindSpec(s, [a]);
    match Find(s, [a])
    case None =>
      forall k | 0 <= k < |s| ensures s[k] != a {
        OccursChar(s, a, k);
      }
    case Some(i) =>
      var rest := s[i + 1..];
      OccursChar(s, a, i);
      forall k | 0 <= k < i ensures s[k] != a {
        OccursChar(s, a, k);
      }
      ReplaceCharPointwise(rest, a, b);
      var r := ReplaceAll(s, [a], [b]);
      assert r == s[..i] + [b] + ReplaceAll(rest, [a], [b]);
      forall k | 0 <= k < |s| ensures r[k] == (if s[k] == a then b else s[k]) {
        if k > i {
          assert r[k] == ReplaceAll(rest, [a], [b])[k - i - 1];
          assert rest[k - i - 1] == s[k];
        }
      }
  }

  /** Replacing `a` by `b` adds every `a` to the count of `b`. */
  lemma {:induction false} ReplaceCharCount(s: string, a: char, b: char)
    requires a != b
    ensures CountChar(ReplaceAll(s, [a], [b]), b) == CountChar(s, b) + CountChar(s, a)
    decreases |s|
  {
    FindSpec(s, [a]);
    match Find(s, [a])
    case None =>
      NoCharCountsZero(s, a);
    case Some(i) =>
      var rest := s[i + 1..];
      OccursChar(s, a, i);
      BeforeFirstHasNoSep(s, [a], i);
      NoCharCountsZero(s[..i], a);
      ReplaceCharCount(rest, a, b);
      var tail := ReplaceAll(rest, [a], [b]);
      assert ReplaceAll(s, [a], [b]) == s[..i] + [b] + tail;
      CountCharConcat(s[..i] + [b], tail, b);
      CountCharConcat(s[..i], [b], b);
      assert s == s[..i] + [a] + rest;
      CountCharConcat(s[..i] + [a], rest, b);
      CountCharConcat(s[..i], [a], b);
      CountCharConcat(s[..i] + [a], rest, a);
      CountCharConcat(s[..i], [a], a);
  }

  // ---------------------------------------------------------------------------
  // Whitespace stripping

  /** Python's `str.isspace()` for one character: the Unicode whitespace set that a
      bare `str.strip()` removes, not only ASCII blanks. */
  predicate IsSpace(c: char)
  {
    ('\t' <= c <= '\r') || ('\U{1C}' <= c <= ' ') || c == '\U{85}' || c == '\U{A0}'
    || c == '\U{1680}' || ('\U{2000}' <= c <= '\U{200A}') || c == '\U{2028}'
    || c == '\U{2029}' || c == '\U{202F}' || c == '\U{205F}' || c == '\U{3000}'
  }

  /** Python's `s.lstrip()`. */
  function LStrip(s: string): string
    decreases |s|
  {
    if |s| > 0 && IsSpace(s[0]) then LStrip(s[1..]) else s
  }

  /** Python's `s.rstrip()`. */
  function RStrip(s: string): string
    decreases |s|
  {
    if |s| > 0 && IsSpace(s[|s| - 1]) then RStrip(s[..|s| - 1]) else s
  }

  /** Python's `s.strip()`. */
  function Strip(s: string): string
  {
    RStrip(LStrip(s))
  }

  /** `lstrip` removes a whitespace prefix and leaves a suffix not starting with
      whitespace. */
  lemma {:induction false} LStripSpec(s: string)
    ensures |LStrip(s)| <= |s| && LStrip(s) == s[|s| - |LStrip(s)|..]
    ensures forall k :: 0 <= k < |s| - |LStrip(s)| ==> IsSpace(s[k])
    ensures |LStrip(s)| > 0 ==> !IsSpace(LStrip(s)[0])
    decreases |s|
  {
    if |s| > 0 && IsSpace(s[0]) {
      LStripSpec(s[1..]);
    }
  }

  /** `rstrip` removes a whitespace suffix and leaves a prefix not ending with
      whitespace. */
  lemma {:induction false} RStripSpec(s: string)
    ensures |RStrip(s)| <= |s| && RStrip(s) == s[..|RStrip(s)|]
    ensures forall k :: |RStrip(s)| <= k < |s| ==> IsSpace(s[k])
    ensures |RStrip(s)| > 0 ==> !IsSpace(RStrip(s)[|RStrip(s)| - 1])
    decreases |s|
  {
    if |s| > 0 && IsSpace(s[|s| - 1]) {
      RStripSpec(s[..|s| - 1]);
    }
  }

  predicate AllSpace(s: string)
  {
    forall k :: 0 <= k < |s| ==> IsSpace(s[k])
  }

  /** Text whose ends are not whitespace. */
  predicate Trimmed(t: string)
  {
    |t| > 0 ==> !IsSpace(t[0]) && !IsSpace(t[|t| - 1])
  }

  lemma {:induction false} LStripPadded(a: string, t: string)
    requires AllSpace(a)
    requires |t| > 0 ==> !IsSpace(t[0])
    ensures LStrip(a + t) == t
    decreases |a|
  {
    if |a| > 0 {
      assert (a + t)[1..] == a[1..] + t;
      LStripPadded(a[1..], t);
    } else {
      assert a + t == t;
    }
  }

  lemma {:induction false} RStripPadded(t: string, b: string)
    requires AllSpace(b)
    requires |t| > 0 ==> !IsSpace(t[|t| - 1])
    ensures RStrip(t + b) == t
    decreases |b|
  {
    if |b| > 0 {
      assert (t + b)[..|t + b| - 1] == t + b[..|b| - 1];
      RStripPadded(t, b[..|b| - 1]);
    } else {
      assert t + b == t;
    }
  }

  /** A stripped text neither starts nor ends with whitespace. */
  lemma StripTrimmed(s: string)
    ensures Trimmed(Strip(s))
  {
    LStripSpec(s);
    RStripSpec(LStrip(s));
    var t := Strip(s);
    if |t| > 0 {
      assert t[0] == LStrip(s)[0];
    }
  }

  /** `strip` removes exactly the surrounding whitespace: text with non-blank ends,
      padded on either side by whitespace, strips back to itself. */
  lemma StripPadded(a: string, t: string, b: string)
    requires AllSpace(a) && AllSpace(b) && Trimmed(t)
    ensures Strip(a + t + b) == t
  {
    assert a + t + b == a + (t + b);
    if |t| > 0 {
      assert (t + b)[0] == t[0];
    } else {
      assert t + b == b;
      if |b| > 0 {
        assert IsSpace((t + b)[0]);
        LStripPadded(a + b, "");
        assert a + b + "" == a + b;
        RStripPadded("", "");
        return;
      }
    }
    LStripPadded(a, t + b);
    RStripPadded(t, b);
  }

  /** Stripping twice is stripping once. */
  lemma StripIdempotent(s: string)
    ensures Strip(Strip(s)) == Strip(s)
  {
    var t := Strip(s);
    StripTrimmed(s);
    StripPadded("", t, "");
    assert "" + t + "" == t;
  }

  // ---------------------------------------------------------------------------
  // Decimal formatting

  predicate IsDigit(c: char)
  {
    '0' <= c <= '9'
  }

  function DigitChar(d: nat): (c: char)
    requires d < 10
    ensures IsDigit(c) && c as int - '0' as int == d
  {
    (48 + d) as char
  }

  /** Python's `"%d" % n` for a non-negative `n`. */
  function FormatDecimal(n: nat): (s: string)
    ensures |s| >= 1
    ensures n < 10 <==> |s| == 1
    ensures forall i :: 0 <= i < |s| ==> IsDigit(s[i])
    ensures |s| > 1 ==> s[0] != '0'
    decreases n
  {
    if n < 10 then [DigitChar(n)] else FormatDecimal(n / 10) + [DigitChar(n % 10)]
  }

  /** The number a string of decimal digits denotes. */
  function DecimalValue(s: string): (v: int)
    requires forall i :: 0 <= i < |s| ==> IsDigit(s[i])
    ensures v >= 0
  {
    if |s| == 0 then 0
    else
      assert IsDigit(s[|s| - 1]);
      DecimalValue(s[..|s| - 1]) * 10 + (s[|s| - 1] as int - '0' as int)
  }

  /** Reading back the decimal rendering of `n` gives `n`. */
  lemma {:induction false} DecimalRoundTrip(n: nat)
    ensures DecimalValue(FormatDecimal(n)) == n
    decreases n
  {
    if n >= 10 {
      var s := FormatDecimal(n);
      DecimalRoundTrip(n / 10);
      assert s[..|s| - 1] == FormatDecimal(n / 10);
    }
  }

  /** The strings `"%d" % n` can produce: non-empty, all digits, and no leading
      zero unless the number is zero itself. */
  predicate IsDecimal(s: string)
  {
    && |s| >= 1
    && (forall i :: 0 <= i < |s| ==> IsDigit(s[i]))
    && (|s| > 1 ==> s[0] != '0')
  }

  /** Every such string is the rendering of the number it denotes, so together
      with `DecimalRoundTrip` the rendering is a bijection onto `IsDecimal`. */
  lemma {:induction false} DecimalCanonical(s: string)
    requires IsDecimal(s)
    ensures |s| > 1 ==> DecimalValue(s) >= 10
    ensures FormatDecimal(DecimalValue(s)) == s
    decreases |s|
  {
    var last := s[|s| - 1];
    var d := last as int - '0' as int;
    if |s| == 1 {
      assert DigitChar(d) == last;
    } else {
      var p := s[..|s| - 1];
      assert p[0] == s[0];
      if |p| > 1 {
        DecimalCanonical(p);
      }
      var v := DecimalValue(s);
      assert v == DecimalValue(p) * 10 + d;
      assert v / 10 == DecimalValue(p) && v % 10 == d;
      DecimalCanonical(p);
      assert DigitChar(d) == last;
      assert s == p + [last];
    }
  }
}

=== FILE: wrappers.dfy ===
/** The optional value shared by the model; `None` is Python's `None`. */
module Wrappers {

  /** A value that may be absent; stands for Python's `None`. */
  datatype Option<+T> = None | Some(value: T)
}
